=== FILE: README.md ===
# cbuild csolution builder: a Dafny model

This project models the decision layer of cbuild's `CSolutionBuilder`, in
`pkg/builder/csolution/builder.go`. That layer:

- turns the build options into csolution argument vectors;
- parses what csolution prints (context lists, toolchain lists, missing packs);
- derives the configuration list, validates and selects contexts;
- looks the project descriptor (`.cprj`) of a context up in the build index;
- derives the output and intermediate directories of a project;
- orders the delegated calls of a build: list contexts, select, install missing packs (with `--packs`), convert once, then process each selected context, stopping at the first failure.

The tools are oracles. The model does not run csolution, does not look for binaries, does not parse the index and does not run the per-project builder. A `Runner` object holds an `Oracle` and records every delegated call in its `log`. Each operation is written twice:

- as an imperative method that takes the runner, with the source's loops, early returns and `break`s;
- as a function that gives the result together with the calls made (a `Step`).

Each method is proved to return the function's result and to append exactly the function's calls to the log. The properties of the builder are lemmas about those functions.

Modules:

- `Errors`: the error outcomes, `Result` and `Option`.
- `Strings`: Go's `strings.TrimSpace`, `ReplaceAll` for `" "` and `"\r\n"`, `Split`, `Join`, `Index`, `Contains`, and the append-if-absent helper.
- `Paths`: `filepath.Dir`, `Base` and `Join` over `/`-separated paths.
- `Contexts`: context identifiers `project[.buildType]+targetType`, their configuration suffix, and the selection of the contexts of one configuration.
- `CSolution`: the builder itself (runner, argument vector, listings, configurations, selection, pack installation, descriptor lookup, processing, build).
- `CSolutionProperties`: the lemmas that relate several operations or quantify over all inputs.

## Model

| member | source | states |
|---|---|---|
| CSolution.FormulateArgs | pkg/builder/csolution/builder.go:27-65 | error (and only error) when `--context` and `--configuration` are both set; otherwise exactly the command followed by the rendered flags the options ask for |
| CSolution.AppendFileFlags | pkg/builder/csolution/builder.go:36-50 | the solution, output, load, no-check-schema and no-update-rte appends give the command followed by those flags of rank 0 to 4 |
| CSolution.AppendSelectionFlags | pkg/builder/csolution/builder.go:51-62 | the configuration, context, filter and verbose appends give those flags of rank 5 to 8, one at a time |
| CSolution.Args | pkg/builder/csolution/builder.go:27-65 | formulateArgs as a value: fails exactly on the conflict, with the conflict error; a result always starts with the command |
| CSolution.FlagAt | pkg/builder/csolution/builder.go:36-62 | the flag an option contributes has the rank of its position in the vector |
| CSolution.AppendRangeRendersFlags | pkg/builder/csolution/builder.go:34-62 | appending the flags one by one after the command is the command followed by all rendered flags |
| CSolution.AppendRangeSplit | pkg/builder/csolution/builder.go:36-62 | appending ranks 0-4 and then 5-8 is appending ranks 0-8 |
| CSolutionProperties.FlagsPresence | pkg/builder/csolution/builder.go:36-62 | each flag appears exactly when its option is set; `--no-check-schema` exactly when schema checking is off, `--no-update-rte` exactly when RTE update is off |
| CSolutionProperties.FlagsOrdered | pkg/builder/csolution/builder.go:36-62 | the flags come in the fixed order solution, output, load, no-check-schema, no-update-rte, configuration, context, filter, verbose; none twice |
| CSolutionProperties.FlagsBelowMembers | pkg/builder/csolution/builder.go:36-62 | a flag is among the first k exactly when its rank is below k and its option asks for it |
| CSolutionProperties.FlagsBelowRanks | pkg/builder/csolution/builder.go:36-62 | the first k flags have strictly increasing ranks, all below k |
| CSolution.Runner.ExecuteCsolution | pkg/builder/csolution/builder.go:67-79 | no run when the csolution binary is missing (tool-not-found); otherwise one logged run whose failure is an error |
| CSolution.CsolutionStep | pkg/builder/csolution/builder.go:67-79 | a missing binary gives tool-not-found with no call; a present one makes exactly one call, succeeding with the tool's output exactly when the tool produces one and failing with tool-failed otherwise |
| CSolution.Runner.CpackgetFound | pkg/builder/csolution/builder.go:104-105 | answers exactly the oracle's verdict on whether the cpackget binary exists |
| CSolution.Runner.ExecuteCpackget | pkg/builder/csolution/builder.go:110 | one logged cpackget run, whose outcome the oracle decides |
| CSolution.Runner.ParseIndexFile | pkg/builder/csolution/builder.go:121 | one logged index read, whose entries (or parse failure) the oracle decides |
| CSolution.Runner.BuildProject | pkg/builder/csolution/builder.go:214-222 | one logged per-project build of the descriptor with the given options |
| CSolution.ParseToolList | pkg/builder/csolution/builder.go:287-290 | empty list exactly when nothing is left after removing spaces; no entry holds a space or a line feed |
| CSolutionProperties.ToolListRoundTrip | pkg/builder/csolution/builder.go:287-290 | entries without white space, printed one per line with LF or CRLF endings and any white space around the text, parse back to exactly those entries, interior blank lines included |
| CSolution.ListContextsStep | pkg/builder/csolution/builder.go:271-292 | the option conflict fails before any call; a listing obtained means csolution was found |
| CSolution.ListContexts | pkg/builder/csolution/builder.go:271-292 | `list contexts` (plus `--yml-order` when asked), then the parsed output; result and logged calls are those of ListContextsStep |
| CSolution.ListToolchainsStep | pkg/builder/csolution/builder.go:294-311 | the option conflict fails before any call |
| CSolution.ListToolchains | pkg/builder/csolution/builder.go:294-311 | `list toolchains`, then the parsed output; result and logged calls are those of ListToolchainsStep |
| Contexts.ConfigurationOf | pkg/builder/csolution/builder.go:240-250 | none exactly when the context holds neither `.` nor `+`; otherwise the suffix from the first `.`, or from the first `+` when there is no `.` |
| CSolution.Configurations | pkg/builder/csolution/builder.go:238-259 | no duplicates, every configuration passes the filter |
| CSolution.CollectConfigurations | pkg/builder/csolution/builder.go:238-259 | the loop with its two `continue`s computes Configurations |
| CSolutionProperties.ConfigurationsMembers | pkg/builder/csolution/builder.go:238-259 | a configuration is listed exactly when some context has it and it contains the filter |
| CSolutionProperties.ConfigurationsPrefix | pkg/builder/csolution/builder.go:238-259 | the list keeps the order of first occurrence: a prefix of the catalog yields a prefix of the list |
| CSolution.ListConfigurationsStep | pkg/builder/csolution/builder.go:229-269 | every failure is "configurations list failed"; the result has no duplicates; under a filter it is non-empty and every entry contains the filter |
| CSolution.ListConfigurations | pkg/builder/csolution/builder.go:229-269 | result and logged calls are those of ListConfigurationsStep |
| CSolutionProperties.ListConfigurationsOutcome | pkg/builder/csolution/builder.go:251-268 | once the contexts are listed, the result is the filtered configurations; an empty list is an error only under a filter |
| CSolutionProperties.ConfigurationsListingUnfiltered | pkg/builder/csolution/builder.go:230-232 | the context listing is one csolution call (or none) whose flags hold no filter |
| Contexts.ParseContext | pkg/builder/csolution/builder.go:148 | parses exactly when the text holds a `+` and does not end with one; the target type is the non-empty, `+`-free text after the last `+`; the project name holds no `.` |
| Contexts.CreateContext | pkg/builder/csolution/builder.go:153 | formats exactly when project name and target type are set; the result starts with the project and ends with `+target` |
| Contexts.FormatParse | pkg/builder/csolution/builder.go:148-153 | a well-formed item formats to a well-formed context that parses back to the item |
| Contexts.ParseFormat | pkg/builder/csolution/builder.go:148-153 | a well-formed context parses, and formatting the parse gives the context back |
| CSolution.ValidateContext | pkg/builder/csolution/builder.go:147-164 | success gives the canonical form of the input, which is in the catalog; for a parsable, formattable input, success exactly when that form is in the catalog; errors are invalid-context or not-found |
| CSolutionProperties.ValidateCanonical | pkg/builder/csolution/builder.go:147-164 | a canonical context validates to itself when the catalog lists it and is "not found" otherwise |
| CSolutionProperties.ValidateFormatted | pkg/builder/csolution/builder.go:147-164 | validating the formatted context of a well-formed item succeeds exactly when the catalog lists it, with that very text |
| Contexts.SelectedContexts | pkg/builder/csolution/builder.go:358 | the contexts of exactly the given configuration; none is an error |
| Contexts.WithConfiguration | pkg/builder/csolution/builder.go:358 | keeps exactly the contexts whose configuration is the given one |
| Contexts.ConfigurationOfFormat | pkg/builder/csolution/builder.go:240-250 | the configuration of a formatted well-formed context is its text after the project name: `.buildType+target`, or `+target` without a build type |
| Contexts.SelectedByOwnConfiguration | pkg/builder/csolution/builder.go:358 | a well-formed context is among the contexts selected by its own configuration exactly when the catalog lists it |
| Contexts.WithConfigurationConcat | pkg/builder/csolution/builder.go:358 | the selection distributes over concatenation of catalogs, so it keeps the catalog's order |
| CSolution.Selection | pkg/builder/csolution/builder.go:343-363 | a set context selects exactly its validated canonical form; no context and no configuration selects the whole catalog unchanged; a configuration selects exactly the catalog's contexts of that configuration, in catalog order, and fails when there is none |
| CSolution.PackIds | pkg/builder/csolution/builder.go:98-102 | the installed identifiers are non-empty and free of spaces |
| CSolution.PackIdsMembers | pkg/builder/csolution/builder.go:98-102 | an identifier is installed exactly when it is non-empty and some listed line gives it once its spaces are removed |
| CSolution.PackIdsConcat | pkg/builder/csolution/builder.go:98-102 | the identifiers of two listings one after the other are those of the first followed by those of the second: line order is kept |
| CSolution.MissingPackLines | pkg/builder/csolution/builder.go:97 | the listing is cut into lines without a line feed; a blank listing is one empty line |
| CSolutionProperties.InstallPacksOutcome | pkg/builder/csolution/builder.go:81-97 | InstallPacksStep: an option conflict fails with no call; a missing csolution fails with no call; a failed `list packs -m` fails after that one call and installs nothing; otherwise the install loop runs over MissingPackLines of the listing |
| CSolutionProperties.MissingPacksRoundTrip | pkg/builder/csolution/builder.go:97-102 | identifiers free of white space, printed one per line with LF or CRLF endings and any white space around the text, are exactly the identifiers PackIds(MissingPackLines(...)) installs, in order; an empty listing installs none |
| CSolutionProperties.PackIdsPlain | pkg/builder/csolution/builder.go:98-102 | lines that are already plain identifiers are installed unchanged and in order |
| CSolutionProperties.InstallPacksOfListing | pkg/builder/csolution/builder.go:81-115 | with csolution and cpackget present, `list packs -m` followed by one fail-fast installation per printed identifier, in the printed order |
| CSolution.InstallMissingPacks | pkg/builder/csolution/builder.go:81-117 | `list packs -m`, then the install loop; result and logged calls are those of InstallPacksStep |
| CSolution.InstallEachPack | pkg/builder/csolution/builder.go:98-115 | the install loop with its `continue` and early returns has the result and calls of InstallEach |
| CSolution.InstallStep | pkg/builder/csolution/builder.go:98-115 | one iteration of the install loop: a blank line is skipped with no call, a missing cpackget ends the loop with no further call, a refused installation ends it after its own call, a success continues with the rest |
| CSolutionProperties.InstallEachInOrder | pkg/builder/csolution/builder.go:98-115 | with cpackget present, one `pack add <id> --force-reinstall --agree-embedded-license` per listed pack, in order, stopping at (and failing with) the first refused installation |
| CSolutionProperties.InstallEachWithoutTool | pkg/builder/csolution/builder.go:104-108 | without cpackget nothing is run: success when no pack is listed, tool-not-found otherwise |
| CSolutionProperties.InstallEachRuns | pkg/builder/csolution/builder.go:98-115 | the install loop InstallEach is the fail-fast run of one installation step per listed pack |
| CSolutionProperties.InstallPacksPhase | pkg/builder/csolution/builder.go:81-117 | InstallPacksStep only lists packs and installs them: every call it makes is of the pack phase |
| CSolution.FirstMatch | pkg/builder/csolution/builder.go:124-129 | the index of the first entry containing the context, none when no entry contains it |
| CSolution.FindCprjFile | pkg/builder/csolution/builder.go:119-137 | the scan with `break`: not found unless the first matching entry exists and is non-empty; otherwise `dir(idx)/dir(entry)/<context>.cprj` of that entry |
| CSolution.GetCprjFilePath | pkg/builder/csolution/builder.go:119-137 | reads the index once, then the lookup; an unreadable index is an error |
| CSolutionProperties.CprjFileIgnoresLater | pkg/builder/csolution/builder.go:124-129 | entries after the first match never change the result |
| CSolutionProperties.CprjFileLocation | pkg/builder/csolution/builder.go:130-134 | CprjFile: the descriptor's directory is the matching entry's directory under the index directory, and its name is `<context>.cprj` |
| CSolution.SolutionNameSpec | pkg/builder/csolution/builder.go:187-190 | SolutionName: the file name is accepted exactly when it holds two dots; the solution name is the dot-free text before the first one |
| CSolutionProperties.IndexFileLocation | pkg/builder/csolution/builder.go:193-198 | IndexFile: the index is `<output or dir(solution)>/<name>.cbuild-idx.yml` |
| CSolutionProperties.FormulatePathLayout | pkg/builder/csolution/builder.go:167-174 | FormulatePath joins to `dir(cprj)/<dir>/project[/buildType]/target`, the build-type segment present only when non-empty |
| CSolutionProperties.ProjectOptionsOfContext | pkg/builder/csolution/builder.go:204-208 | ProjectOptions: the per-project output and intermediate directories follow that layout under `out` and `tmp`; no other option changes |
| CSolutionProperties.ProjectOptionsOfUnparsed | pkg/builder/csolution/builder.go:205-208 | a context that does not parse leaves `dir(cprj)/out` and `dir(cprj)/tmp` |
| CSolution.ProcessContext | pkg/builder/csolution/builder.go:166-227 | result and logged calls are those of ProcessContextStep |
| CSolutionProperties.ProcessContextBadName | pkg/builder/csolution/builder.go:186-190 | a solution file name that does not split into exactly three dot-separated tokens fails with the file-name error before any call |
| CSolutionProperties.ProcessContextReadsIndex | pkg/builder/csolution/builder.go:192-202 | with a valid name, the first call reads `<output or input dir>/<name>.cbuild-idx.yml`, and a second (and last) call happens exactly when the descriptor is found there |
| CSolutionProperties.ProcessContextBuilds | pkg/builder/csolution/builder.go:204-226 | a found descriptor is built with the derived output and intermediate directories; the outcome of ProcessContextStep is the per-project builder's own outcome, its error passed on unchanged |
| CSolutionProperties.ProcessContextPhase | pkg/builder/csolution/builder.go:186-226 | ProcessContextStep: processing a context only reads the index and builds a project: no tool listing, installation or conversion happens in it |
| CSolution.ProcessContexts | pkg/builder/csolution/builder.go:386-392 | the loop with `break` has the result and calls of ProcessAll |
| CSolution.FailFastStep | pkg/builder/csolution/builder.go:386-392 | one iteration of the context loop: a failure ends it with that result, a success continues with the rest |
| CSolutionProperties.ProcessAllFailFast | pkg/builder/csolution/builder.go:386-393 | ProcessAll: contexts are processed in selection order up to and including the first failure, whose error is returned; with no failure all are processed and the loop succeeds |
| CSolutionProperties.RunAllFailFast | pkg/builder/csolution/builder.go:386-393 | running steps until the first failure makes exactly the calls of the steps up to that one |
| CSolution.ConvertAndProcessContexts | pkg/builder/csolution/builder.go:365-393 | arguments, packs when asked, convert, then the context loop; result and logged calls are those of ConvertAndProcess |
| CSolution.Build | pkg/builder/csolution/builder.go:332-394 | result and logged calls are those of BuildStep |
| CSolutionProperties.BuildConflict | pkg/builder/csolution/builder.go:336-340 | `--context` with `--configuration` fails before any call |
| CSolutionProperties.BuildPhases | pkg/builder/csolution/builder.go:332-394 | BuildStep: calls come phase by phase (list contexts, packs, convert, contexts); convert at most once, and before any context is processed; a successful build converted; no pack call without `--packs` |
| CSolutionProperties.BuildSelectionFailure | pkg/builder/csolution/builder.go:343-363 | a failed selection ends the build after the one listing call, with an invalid-context, not-found or no-configuration error |
| CSolutionProperties.ConvertAndProcessParts | pkg/builder/csolution/builder.go:365-393 | the calls of ConvertAndProcess are pack calls (only with `--packs`), at most one convert, and context calls; context calls happen only after successful argument formulation, pack installation and conversion, and are then exactly those of ProcessAll |
| CSolutionProperties.PacksFailureStops | pkg/builder/csolution/builder.go:371-376 | a failed pack installation ends the build with its own result and calls: nothing is converted and no context is processed |
| CSolutionProperties.ConvertFailureStops | pkg/builder/csolution/builder.go:378-383 | a failed conversion ends the build with its error after the pack calls and the one convert call: no context is processed |
| CSolutionProperties.ConvertThenProcess | pkg/builder/csolution/builder.go:378-392 | after the packs and a successful conversion, the build's result is that of the context loop ProcessAll and its calls are the packs, the convert, then the loop's calls |
| CSolutionProperties.BuildSelected | pkg/builder/csolution/builder.go:335-363 | BuildStep: a failed listing ends the build after the listing call; after a listing and selection, the build is ConvertAndProcess of the selected contexts under the selected context option |
| CSolutionProperties.PhasesOfParts | pkg/builder/csolution/builder.go:332-394 | runs of calls of increasing phase form an ordered trace with the phase-2 calls adjacent |
| Strings.TrimSpace | pkg/builder/csolution/builder.go:289 | empty exactly when the text is all white space; otherwise starts and ends with a non-space character |
| Strings.TrimSpaceOf | pkg/builder/csolution/builder.go:289 | removes exactly the white space around the text and keeps the interior, blank lines included |
| Strings.RemoveChar | pkg/builder/csolution/builder.go:287 | every occurrence of the character is removed and every other character kept |
| Strings.ReplaceCRLF | pkg/builder/csolution/builder.go:289 | removes only carriage returns; text without one is unchanged; the CRLF case itself is stated by ReplaceCRLFOfToCRLF |
| Strings.ReplaceCRLFConcat | pkg/builder/csolution/builder.go:289 | normalisation works piece by piece at any cut that does not split a CRLF pair, so mixed line endings are handled line by line |
| Strings.ReplaceCRLFOfToCRLF | pkg/builder/csolution/builder.go:289 | CRLF normalisation undoes CRLF line endings |
| Strings.Split | pkg/builder/csolution/builder.go:289 | one piece more than separators; no piece holds the separator |
| Strings.JoinSplit | pkg/builder/csolution/builder.go:289 | joining the pieces gives the text back |
| Strings.SplitJoin | pkg/builder/csolution/builder.go:289 | splitting the join of separator-free pieces gives the pieces back |
| Strings.IndexOf | pkg/builder/csolution/builder.go:240-241 | strings.Index: -1 exactly when the character is absent; otherwise the position of its first occurrence |
| Strings.LastIndexOf | pkg/builder/csolution/builder.go:187 | -1 exactly when the character is absent; otherwise the position of its last occurrence |
| Strings.ContainsAt | pkg/builder/csolution/builder.go:252 | strings.Contains holds whenever the text occurs at some position |
| Strings.ContainsWitness | pkg/builder/csolution/builder.go:125 | strings.Contains gives a position at which the text occurs |
| Strings.AppendUnique | pkg/builder/csolution/builder.go:253-257 | appends the value unless present: the old list is a prefix, membership grows by the value, no duplicate is introduced |
| Paths.Base | pkg/builder/csolution/builder.go:187 | the last path element holds no separator |
| Paths.BaseSuffix | pkg/builder/csolution/builder.go:187 | Base is "." for the empty path; otherwise it is the suffix of the path after its last separator (the whole path when there is none) |
| Paths.DirBaseSplit | pkg/builder/csolution/builder.go:195 | Dir is never empty; it is "." without a separator; otherwise the path is Dir, a separator and Base, or "/" followed by Base |
| Paths.DirBase | pkg/builder/csolution/builder.go:133 | a path whose last separator is not its first character is Dir, "/" and Base |
| Paths.DirBaseOfChild | pkg/builder/csolution/builder.go:133 | Dir and Base of `d/name` are `d` and `name` |
| Paths.NonEmpty | pkg/builder/csolution/builder.go:168-172 | the join skips empty elements: none is left |
| Paths.NonEmptyCounts | pkg/builder/csolution/builder.go:168-172 | every non-empty element is kept as many times as it occurs |
| Paths.NonEmptyKeepsAll | pkg/builder/csolution/builder.go:168-172 | elements that are all non-empty are kept unchanged |
| Paths.NonEmptyConcat | pkg/builder/csolution/builder.go:168-172 | the filter distributes over concatenation, so order is kept |
| Paths.JoinPathSplits | pkg/builder/csolution/builder.go:168-172 | JoinPath: a join of non-empty, separator-free elements splits back at `/` into exactly those elements |
| CSolutionProperties.JoinPathCons | pkg/builder/csolution/builder.go:198 | JoinPath of a non-empty first element is that element alone, or followed by `/` and the join of the rest when some later element is non-empty |

## Left out

- Running the tools: `Runner.ExecuteCommand` and the `os.Stat` existence checks (builder.go:74, 105, 110, 141) are an `Oracle` answer: found or not, output or failure.
- The build index document: `utils.ParseCbuildIndexFile` (builder.go:121) is an oracle giving the listed descriptor paths or a parse failure.
- The per-project builder: `cproject.CprjBuilder.Build` (builder.go:214-222) is an oracle keyed by the descriptor and its options.
- `utils.UpdateEnvVars` (builder.go:333): best-effort environment setup whose result is discarded.
- Logging, the `fmt.Println` banner (builder.go:176-178) and the public `ListConfigurations`, `ListContexts` and `ListToolchains` wrappers (builder.go:313-330), which only print or forward.
- The error texts: errors are constructors. The sorted catalog inside the "not found" message (builder.go:158-161) is not modelled.
- The source of `utils.ParseContext`, `CreateContext`, `GetSelectedContexts`, `Contains` and `AppendUnique` is not part of this model. Their behaviour is modelled from the context grammar `project[.buildType]+targetType`, and the contracts above state what the model assumes of them.
- Path cleaning: `filepath.Join`, `Dir` and `Base` are modelled without `Clean`. A root directory gives `//out/...` where Go gives `/out/...`.
- `Strings.IsSpace` covers the white space of Go's `unicode.IsSpace`. Characters are Dafny `char`s, not UTF-8 bytes.
- The log warning when `--output` is combined with `--outdir` or `--intdir` (builder.go:181-184). The comment at builder.go:180 and the warning at builder.go:182-183 say that `--outdir` and `--intdir` are ignored under `--output`. The code always overwrites both directories with the derived ones, whatever was given, and the model follows the code (`ProjectOptions`).
- A context that does not parse in processContext: the code ignores the parse error (builder.go:205). `utils.ParseContext` is not part of this model, so the item it returns with its error is unknown; the model assumes the empty item (`ProjectOptions`).
- Contexts.ParseContext: splits at the last `+`, so an earlier `+` stays in the project name (`a+b+c` gives project `a+b`, target `c`). The context grammar does not say how several `+` are read; a reading that rejects them is not modelled.
- Paths.Base: a path ending in `/` gives the empty element, where Go's `filepath.Base` first strips trailing separators. The paths handled here (solution and index files) do not end in `/`.
- CSolution.ListContextsStep, CSolution.ListToolchainsStep: their own contracts state only the conflict and found cases. The full outcome is stated by ListContexts and ListToolchains against these functions and by ToolListRoundTrip.

=== FILE: builder.dfy ===
/** The decision layer of the csolution builder (CSolutionBuilder): it turns the
    build options and the text printed by the csolution tool into argument
    vectors, context lists and selections, descriptor paths and output
    directories, and it orders the delegated calls of a build.

    The tools are oracles. A `Runner` holds them and records every call it makes
    in `log`; each method below is proved against a function that gives its
    result together with the calls it makes (a `Step`), and the properties of
    a build are lemmas about those functions (module CSolutionProperties). */
module CSolution {
  import opened Errors
  import opened Strings
  import opened Paths
  import opened Contexts

  /** The build options the solution builder reads. */
  datatype Options = Options(
    output: string,
    load: string,
    schema: bool,
    updateRte: bool,
    configuration: string,
    context: string,
    filter: string,
    verbose: bool,
    packs: bool,
    outDir: string,
    intDir: string)

  /** The solution file together with the options. */
  datatype Params = Params(inputFile: string, options: Options)

  /** One delegated call, as the runner records it. */
  datatype Call =
    | CsolutionRun(args: seq<string>, quiet: bool)   // the csolution binary with these arguments
    | CpackgetRun(args: seq<string>)                 // the cpackget binary with these arguments
    | IndexRead(path: string)                        // parsing the build index document
    | ProjectBuild(cprj: string, options: Options)   // the per-project builder on one descriptor

  /** What the outside world answers. `csolution` gives the printed output, or None
      for a failed run; `index` gives the descriptor paths listed by an index
      document, or None when it does not parse; `project` gives the outcome of the
      per-project builder, with that builder's own error when it fails. */
  datatype Oracle = Oracle(
    csolutionFound: bool,
    csolution: seq<string> -> Option<string>,
    cpackgetFound: bool,
    cpackget: seq<string> -> bool,
    index: string -> Option<seq<string>>,
    project: (string, Options) -> Result<()>)

  /** The outcome of an operation together with the calls it made, in order. */
  datatype Step<T> = Step(res: Result<T>, trace: seq<Call>)

  /** The calls `t` made before an operation that went on as `s`. */
  function Prepend<T>(t: seq<Call>, s: Step<T>): Step<T> {
    Step(s.res, t + s.trace)
  }

  // ---------------------------------------------------------------- runner

  class Runner {
    const oracle: Oracle
    var log: seq<Call>

    constructor (oracle: Oracle)
      ensures this.log == []
    {
      this.oracle := oracle;
      log := [];
    }

    /** runCSolution: look the csolution binary up, then run it. */
    method ExecuteCsolution(args: seq<string>, quiet: bool) returns (res: Result<string>)
      modifies this
      ensures res == CsolutionStep(oracle, args, quiet).res
      ensures log == old(log) + CsolutionStep(oracle, args, quiet).trace
    {
      if !oracle.csolutionFound {
        return Err(ToolNotFound);
      }
      log := log + [CsolutionRun(args, quiet)];
      match oracle.csolution(args)
      case Some(output) => res := Ok(output);
      case None => res := Err(ToolFailed);
    }

    /** The existence check on the cpackget binary. */
    method CpackgetFound() returns (found: bool)
      ensures found == oracle.cpackgetFound
    {
      found := oracle.cpackgetFound;
    }

    method ExecuteCpackget(args: seq<string>) returns (ok: bool)
      modifies this
      ensures ok == oracle.cpackget(args)
      ensures log == old(log) + [CpackgetRun(args)]
    {
      log := log + [CpackgetRun(args)];
      ok := oracle.cpackget(args);
    }

    method ParseIndexFile(path: string) returns (index: Option<seq<string>>)
      modifies this
      ensures index == oracle.index(path)
      ensures log == old(log) + [IndexRead(path)]
    {
      log := log + [IndexRead(path)];
      index := oracle.index(path);
    }

    method BuildProject(cprj: string, options: Options) returns (res: Result<()>)
      modifies this
      ensures res == oracle.project(cprj, options)
      ensures log == old(log) + [ProjectBuild(cprj, options)]
    {
      log := log + [ProjectBuild(cprj, options)];
      res := oracle.project(cprj, options);
    }
  }

  /** A csolution run: nothing is run when the binary is missing; otherwise exactly
      one run, whose output is the result and whose failure is an error. */
  function CsolutionStep(o: Oracle, args: seq<string>, quiet: bool): (s: Step<string>)
    ensures s.res.Ok? ==> o.csolutionFound && s.trace == [CsolutionRun(args, quiet)]
    ensures s.trace == [] || s.trace == [CsolutionRun(args, quiet)]
    ensures !o.csolutionFound ==> s.res == Err(ToolNotFound) && s.trace == []
    ensures o.csolutionFound ==>
              s.trace == [CsolutionRun(args, quiet)] &&
              (s.res.Ok? <==> o.csolution(args).Some?) &&
              (s.res.Ok? ==> s.res.value == o.csolution(args).value) &&
              (s.res.Err? ==> s.res.error == ToolFailed)
  {
    if !o.csolutionFound then Step(Err(ToolNotFound), [])
    else match o.csolution(args)
      case Some(output) => Step(Ok(output), [CsolutionRun(args, quiet)])
      case None => Step(Err(ToolFailed), [CsolutionRun(args, quiet)])
  }

  // ------------------------------------------------------- argument vector

  /** The csolution flags, as values. */
  datatype Flag =
    | Solution(file: string)
    | Output(dir: string)
    | Load(mode: string)
    | NoCheckSchema
    | NoUpdateRte
    | ContextConfiguration(configuration: string)
    | ContextName(context: string)
    | Filter(filter: string)
    | Verbose

  function Render(f: Flag): string {
    match f
    case Solution(file) => "--solution=" + file
    case Output(dir) => "--output=" + dir
    case Load(mode) => "--load=" + mode
    case NoCheckSchema => "--no-check-schema"
    case NoUpdateRte => "--no-update-rte"
    case ContextConfiguration(c) => "--context=*" + c
    case ContextName(c) => "--context=" + c
    case Filter(filter) => "--filter=" + filter
    case Verbose => "--verbose"
  }

  function RenderAll(fs: seq<Flag>): (r: seq<string>)
    ensures |r| == |fs|
  {
    if fs == [] then [] else [Render(fs[0])] + RenderAll(fs[1..])
  }

  /** The position of each flag in the fixed order of the argument vector. */
  function Rank(f: Flag): nat {
    match f
    case Solution(_) => 0
    case Output(_) => 1
    case Load(_) => 2
    case NoCheckSchema => 3
    case NoUpdateRte => 4
    case ContextConfiguration(_) => 5
    case ContextName(_) => 6
    case Filter(_) => 7
    case Verbose => 8
  }

  /** The flag of rank k, when its option asks for it. */
  function FlagAt(p: Params, k: nat): (r: Option<Flag>)
    ensures r.Some? ==> Rank(r.value) == k
  {
    var o := p.options;
    if k == 0 then (if p.inputFile != "" then Some(Solution(p.inputFile)) else None)
    else if k == 1 then (if o.output != "" then Some(Output(o.output)) else None)
    else if k == 2 then (if o.load != "" then Some(Load(o.load)) else None)
    else if k == 3 then (if !o.schema then Some(NoCheckSchema) else None)
    else if k == 4 then (if !o.updateRte then Some(NoUpdateRte) else None)
    else if k == 5 then (if o.configuration != "" then Some(ContextConfiguration(o.configuration)) else None)
    else if k == 6 then (if o.context != "" then Some(ContextName(o.context)) else None)
    else if k == 7 then (if o.filter != "" then Some(Filter(o.filter)) else None)
    else if k == 8 then (if o.verbose then Some(Verbose) else None)
    else None
  }

  /** The flag of rank k as a sequence of at most one flag. */
  function FlagSeq(p: Params, k: nat): seq<Flag> {
    match FlagAt(p, k)
    case Some(f) => [f]
    case None => []
  }

  /** The flags of rank below k that the options ask for, by increasing rank. */
  function FlagsBelow(p: Params, k: nat): seq<Flag> {
    if k == 0 then [] else FlagsBelow(p, k - 1) + FlagSeq(p, k - 1)
  }

  /** The flags the options ask for, in the order of the argument vector. */
  function Flags(p: Params): seq<Flag> {
    FlagsBelow(p, 9)
  }

  /** The arguments followed by the rendered flags of rank lo up to hi, appended
      the way FormulateArgs appends them: one flag at a time. */
  function AppendRange(p: Params, args: seq<string>, lo: nat, hi: nat): seq<string>
    decreases hi
  {
    if hi <= lo then args
    else match FlagAt(p, hi - 1)
      case Some(f) => AppendRange(p, args, lo, hi - 1) + [Render(f)]
      case None => AppendRange(p, args, lo, hi - 1)
  }

  /** Appending the flags in two runs is appending them in one. */
  lemma {:induction false} AppendRangeSplit(p: Params, args: seq<string>, mid: nat, hi: nat)
    requires mid <= hi
    ensures AppendRange(p, AppendRange(p, args, 0, mid), mid, hi) == AppendRange(p, args, 0, hi)
    decreases hi
  {
    if mid < hi {
      AppendRangeSplit(p, args, mid, hi - 1);
    }
  }

  /** The one-at-a-time appends give the command followed by the rendered flags. */
  lemma {:induction false} AppendRangeRendersFlags(p: Params, command: seq<string>, k: nat)
    ensures AppendRange(p, command, 0, k) == command + RenderAll(FlagsBelow(p, k))
  {
    if k > 0 {
      AppendRangeRendersFlags(p, command, k - 1);
      var below := FlagsBelow(p, k - 1);
      RenderAllConcat(below, FlagSeq(p, k - 1));
      match FlagAt(p, k - 1)
      case Some(f) =>
        assert RenderAll([f]) == [Render(f)];
        ConcatAssoc(command, RenderAll(below), [Render(f)]);
      case None =>
        assert FlagsBelow(p, k) == below + [];
    }
  }

  lemma {:induction false} RenderAllConcat(a: seq<Flag>, b: seq<Flag>)
    ensures RenderAll(a + b) == RenderAll(a) + RenderAll(b)
  {
    if a == [] {
      assert a + b == b;
    } else {
      assert (a + b)[1..] == a[1..] + b;
      RenderAllConcat(a[1..], b);
    }
  }

  predicate Conflict(o: Options) {
    o.context != "" && o.configuration != ""
  }

  /** formulateArgs as a value: the command followed by the rendered flags. */
  function Args(p: Params, command: seq<string>): (r: Result<seq<string>>)
    ensures r.Err? <==> Conflict(p.options)
    ensures r.Err? ==> r.error == OptionsConflict
    ensures r.Ok? ==> |r.value| >= |command| && r.value[..|command|] == command
  {
    if Conflict(p.options) then Err(OptionsConflict)
    else
      var args := command + RenderAll(Flags(p));
      assert args[..|command|] == command;
      Ok(args)
  }

  /** formulateArgs: refuses '--context' together with '--configuration', otherwise
      appends the flags the options ask for, one by one, after the command. */
  method FormulateArgs(p: Params, command: seq<string>) returns (res: Result<seq<string>>)
    ensures res.Err? <==> Conflict(p.options)
    ensures res.Err? ==> res.error == OptionsConflict
    ensures res.Ok? ==> res.value == command + RenderAll(Flags(p))
  {
    var o := p.options;
    if o.context != "" && o.configuration != "" {
      return Err(OptionsConflict);
    }
    var args := AppendFileFlags(p, command);
    args := AppendSelectionFlags(p, args);
    AppendRangeSplit(p, command, 5, 9);
    AppendRangeRendersFlags(p, command, 9);
    res := Ok(args);
  }

  /** The first appends of formulateArgs: the solution file, the output directory,
      the load mode and the two disabled checks. */
  method AppendFileFlags(p: Params, args: seq<string>) returns (r: seq<string>)
    ensures r == AppendRange(p, args, 0, 5)
  {
    var o := p.options;
    r := args;
    if p.inputFile != "" {
      r := r + ["--solution=" + p.inputFile];
    }
    assert r == AppendRange(p, args, 0, 1);
    if o.output != "" {
      r := r + ["--output=" + o.output];
    }
    assert r == AppendRange(p, args, 0, 2);
    if o.load != "" {
      r := r + ["--load=" + o.load];
    }
    assert r == AppendRange(p, args, 0, 3);
    if !o.schema {
      r := r + ["--no-check-schema"];
    }
    assert r == AppendRange(p, args, 0, 4);
    if !o.updateRte {
      r := r + ["--no-update-rte"];
    }
  }

  /** The remaining appends of formulateArgs: the configuration or context, the
      filter and verbosity. */
  method AppendSelectionFlags(p: Params, args: seq<string>) returns (r: seq<string>)
    ensures r == AppendRange(p, args, 5, 9)
  {
    var o := p.options;
    r := args;
    if o.configuration != "" {
      r := r + ["--context=*" + o.configuration];
    }
    assert r == AppendRange(p, args, 5, 6);
    if o.context != "" {
      r := r + ["--context=" + o.context];
    }
    assert r == AppendRange(p, args, 5, 7);
    if o.filter != "" {
      r := r + ["--filter=" + o.filter];
    }
    assert r == AppendRange(p, args, 5, 8);
    if o.verbose {
      r := r + ["--verbose"];
    }
  }

  // -------------------------------------------------------- tool listings

  /** The parsing of `list contexts` and `list toolchains` output: spaces removed;
      nothing left means no entry; otherwise trimmed, CRLF made LF and split into lines. */
  function ParseToolList(output: string): (r: seq<string>)
    ensures RemoveChar(output, ' ') == [] <==> r == []
    ensures forall k :: 0 <= k < |r| ==> ' ' !in r[k] && '\n' !in r[k]
  {
    var text := RemoveChar(output, ' ');
    if text == [] then []
    else
      var lines := Split(ReplaceCRLF(TrimSpace(text)), '\n');
      forall k | 0 <= k < |lines| ensures ' ' !in lines[k] {
        NoCharAfterNormalising(text, ' ', lines, k);
      }
      lines
  }

  lemma NoCharAfterNormalising(text: string, c: char, lines: seq<string>, k: nat)
    requires c !in text && c != '\r'
    requires lines == Split(ReplaceCRLF(TrimSpace(text)), '\n') && k < |lines|
    ensures c !in lines[k]
  {
    var t := TrimSpace(text);
    TrimSpaceInside(text);
    var u := ReplaceCRLF(t);
    ReplaceCRLFKeeps(t, c);
    if c in lines[k] {
      JoinSplit(u, '\n');
      JoinContains(lines, '\n', k, c);
      assert false;
    }
  }

  /** Trimming takes characters away and adds none. */
  lemma TrimSpaceInside(s: string)
    ensures forall c :: c in TrimSpace(s) ==> c in s
  {
    var t := TrimRight(s);
    var r := TrimLeft(t);
    forall c | c in r ensures c in s {
      var i :| 0 <= i < |r| && r[i] == c;
      assert r[i] == t[|t| - |r| + i];
      assert t[|t| - |r| + i] == s[|t| - |r| + i];
    }
  }

  /** listContexts: `list contexts` (with `--yml-order` when the declaration order is asked for). */
  function ListContextsStep(p: Params, o: Oracle, quiet: bool, ymlOrder: bool): (s: Step<seq<string>>)
    ensures Conflict(p.options) ==> s == Step(Err(OptionsConflict), [])
    ensures s.res.Ok? ==> o.csolutionFound
  {
    match Args(p, ["list", "contexts"])
    case Err(e) => Step(Err(e), [])
    case Ok(args) =>
      var run := CsolutionStep(o, if ymlOrder then args + ["--yml-order"] else args, quiet);
      match run.res
      case Err(e) => Step(Err(e), run.trace)
      case Ok(output) => Step(Ok(ParseToolList(output)), run.trace)
  }

  /** Models the private listContexts (builder.go:271-292); the public ListContexts
      wrapper, which only prints the result, is not part of this model. */
  method ListContexts(p: Params, r: Runner, quiet: bool, ymlOrder: bool) returns (res: Result<seq<string>>)
    modifies r
    ensures res == ListContextsStep(p, r.oracle, quiet, ymlOrder).res
    ensures r.log == old(r.log) + ListContextsStep(p, r.oracle, quiet, ymlOrder).trace
  {
    var args := FormulateArgs(p, ["list", "contexts"]);
    if args.Err? {
      return Err(args.error);
    }
    var argv := args.value;
    if ymlOrder {
      argv := argv + ["--yml-order"];
    }
    var output := r.ExecuteCsolution(argv, quiet);
    if output.Err? {
      return Err(output.error);
    }
    res := Ok(ParseToolList(output.value));
  }

  /** listToolchains: `list toolchains`, parsed like the context list. */
  function ListToolchainsStep(p: Params, o: Oracle, quiet: bool): (s: Step<seq<string>>)
    ensures Conflict(p.options) ==> s == Step(Err(OptionsConflict), [])
  {
    match Args(p, ["list", "toolchains"])
    case Err(e) => Step(Err(e), [])
    case Ok(args) =>
      var run := CsolutionStep(o, args, quiet);
      match run.res
      case Err(e) => Step(Err(e), run.trace)
      case Ok(output) => Step(Ok(ParseToolList(output)), run.trace)
  }

  /** Models the private listToolchains (builder.go:294-311); the public ListToolchains
      wrapper, which only prints the result, is not part of this model. */
  method ListToolchains(p: Params, r: Runner, quiet: bool) returns (res: Result<seq<string>>)
    modifies r
    ensures res == ListToolchainsStep(p, r.oracle, quiet).res
    ensures r.log == old(r.log) + ListToolchainsStep(p, r.oracle, quiet).trace
  {
    var args := FormulateArgs(p, ["list", "toolchains"]);
    if args.Err? {
      return Err(args.error);
    }
    var output := r.ExecuteCsolution(args.value, quiet);
    if output.Err? {
      return Err(output.error);
    }
    res := Ok(ParseToolList(output.value));
  }

  // ------------------------------------------------------- configurations

  /** Whether a configuration passes the filter (an empty filter passes everything). */
  predicate PassesFilter(configuration: string, filter: string) {
    filter == "" || Contains(configuration, filter)
  }

  /** The configurations of the contexts, in order of first occurrence, without
      repetition, restricted to those containing the filter. */
  function Configurations(contexts: seq<string>, filter: string): (r: seq<string>)
    ensures NoDup(r)
    ensures forall k :: 0 <= k < |r| ==> PassesFilter(r[k], filter)
    decreases |contexts|
  {
    if contexts == [] then []
    else
      var previous := Configurations(contexts[..|contexts| - 1], filter);
      match ConfigurationOf(contexts[|contexts| - 1])
      case None => previous
      case Some(configuration) =>
        if PassesFilter(configuration, filter) then AppendUnique(previous, configuration) else previous
  }

  /** The loop of listConfigurations over the context list. */
  method CollectConfigurations(contexts: seq<string>, filter: string) returns (configurations: seq<string>)
    ensures configurations == Configurations(contexts, filter)
  {
    configurations := [];
    for i := 0 to |contexts|
      invariant configurations == Configurations(contexts[..i], filter)
    {
      assert contexts[..i + 1][..i] == contexts[..i];
      var configuration := ConfigurationOf(contexts[i]);
      if configuration.None? {
        continue;
      }
      if filter != "" {
        if Contains(configuration.value, filter) {
          configurations := AppendUnique(configurations, configuration.value);
        }
        continue;
      }
      configurations := AppendUnique(configurations, configuration.value);
    }
    assert contexts[..|contexts|] == contexts;
  }

  /** listConfigurations: the context list is asked for with the filter cleared; the
      filter then applies to the configurations. No configuration is an error only
      under a filter. Every failure is reported as the same error. */
  function ListConfigurationsStep(p: Params, o: Oracle): (s: Step<seq<string>>)
    ensures s.res.Err? ==> s.res.error == ConfigurationsListFailed
    ensures s.res.Ok? ==> NoDup(s.res.value)
    ensures s.res.Ok? && p.options.filter != "" ==>
              s.res.value != [] && forall k :: 0 <= k < |s.res.value| ==> Contains(s.res.value[k], p.options.filter)
  {
    var filter := p.options.filter;
    var listing := ListContextsStep(p.(options := p.options.(filter := "")), o, true, false);
    match listing.res
    case Err(_) => Step(Err(ConfigurationsListFailed), listing.trace)
    case Ok(contexts) =>
      var configurations := Configurations(contexts, filter);
      if configurations == [] && filter != "" then Step(Err(ConfigurationsListFailed), listing.trace)
      else Step(Ok(configurations), listing.trace)
  }

  /** Models the private listConfigurations (builder.go:229-269); the public
      ListConfigurations wrapper, which only prints the result, is not part of this model. */
  method ListConfigurations(p: Params, r: Runner) returns (res: Result<seq<string>>)
    modifies r
    ensures res == ListConfigurationsStep(p, r.oracle).res
    ensures r.log == old(r.log) + ListConfigurationsStep(p, r.oracle).trace
  {
    var filter := p.options.filter;
    var contexts := ListContexts(p.(options := p.options.(filter := "")), r, true, false);
    if contexts.Err? {
      return Err(ConfigurationsListFailed);
    }
    var configurations := CollectConfigurations(contexts.value, filter);
    if configurations == [] && filter != "" {
      return Err(ConfigurationsListFailed);
    }
    res := Ok(configurations);
  }

  // ------------------------------------------------------------ selection

  /** validateContext: the canonical form of the input, which must be in the catalog. */
  function ValidateContext(allContexts: seq<string>, input: string): (r: Result<string>)
    ensures r.Ok? ==> r.value in allContexts
    ensures r.Ok? ==> ParseContext(input).Ok? && CreateContext(ParseContext(input).value) == Ok(r.value)
    ensures ParseContext(input).Ok? && CreateContext(ParseContext(input).value).Ok? ==>
              (r.Ok? <==> CreateContext(ParseContext(input).value).value in allContexts)
    ensures r.Err? ==> r.error == InvalidContext || r.error == ContextNotFound
  {
    match ParseContext(input)
    case Err(e) => Err(e)
    case Ok(item) =>
      match CreateContext(item)
      case Err(e) => Err(e)
      case Ok(context) => if context in allContexts then Ok(context) else Err(ContextNotFound)
  }

  /** The contexts to build, and the value of the context option afterwards. */
  datatype Selected = Selected(context: string, contexts: seq<string>)

  /** The selection branch of Build: one validated context, the whole catalog, or
      the contexts of one configuration. */
  function Selection(o: Options, allContexts: seq<string>): (r: Result<Selected>)
    ensures r.Ok? ==> forall c :: c in r.value.contexts ==> c in allContexts
    ensures o.context != "" ==>
              (r.Ok? <==> ValidateContext(allContexts, o.context).Ok?) &&
              (r.Ok? ==> r.value.contexts == [r.value.context] &&
                         r.value.context == ValidateContext(allContexts, o.context).value)
    ensures o.context == "" && o.configuration == "" ==> r == Ok(Selected("", allContexts))
    ensures o.context == "" && o.configuration != "" ==>
              (r.Err? <==> forall c :: c in allContexts ==> !HasConfiguration(c, o.configuration)) &&
              (r.Ok? ==> r.value.context == "" && r.value.contexts != [] &&
                         forall c :: c in r.value.contexts <==> c in allContexts && HasConfiguration(c, o.configuration)) &&
              (r.Ok? ==> r.value.contexts == WithConfiguration(allContexts, o.configuration))
  {
    if o.context != "" then
      match ValidateContext(allContexts, o.context)
      case Err(e) => Err(e)
      case Ok(context) => Ok(Selected(context, [context]))
    else if o.configuration == "" then
      Ok(Selected(o.context, allContexts))
    else
      match SelectedContexts(allContexts, o.configuration)
      case Err(e) => Err(e)
      case Ok(contexts) => Ok(Selected(o.context, contexts))
  }

  // --------------------------------------------------------------- packs

  function PackAddArgs(pack: string): seq<string> {
    ["pack", "add", pack, "--force-reinstall", "--agree-embedded-license"]
  }

  /** The pack identifiers of the missing-pack lines: spaces removed, blank lines skipped. */
  function PackIds(lines: seq<string>): (r: seq<string>)
    ensures forall k :: 0 <= k < |r| ==> r[k] != [] && ' ' !in r[k]
  {
    if lines == [] then []
    else
      var pack := RemoveChar(lines[0], ' ');
      (if pack == [] then [] else [pack]) + PackIds(lines[1..])
  }

  /** Some line of the listing gives the identifier x once its spaces are removed. */
  predicate ListsPack(lines: seq<string>, x: string) {
    exists k :: 0 <= k < |lines| && RemoveChar(lines[k], ' ') == x
  }

  /** An identifier is installed exactly when it is not blank and some line gives it. */
  lemma {:induction false} PackIdsMembers(lines: seq<string>, x: string)
    ensures x in PackIds(lines) <==> x != [] && ListsPack(lines, x)
    decreases |lines|
  {
    if lines != [] {
      PackIdsMembers(lines[1..], x);
      ListsPackCons(lines, x);
    }
  }

  lemma ListsPackCons(lines: seq<string>, x: string)
    requires lines != []
    ensures ListsPack(lines, x) <==> RemoveChar(lines[0], ' ') == x || ListsPack(lines[1..], x)
  {
    if ListsPack(lines, x) {
      var k :| 0 <= k < |lines| && RemoveChar(lines[k], ' ') == x;
      if k > 0 {
        assert lines[1..][k - 1] == lines[k];
      }
    }
    if ListsPack(lines[1..], x) {
      var k :| 0 <= k < |lines[1..]| && RemoveChar(lines[1..][k], ' ') == x;
      assert lines[k + 1] == lines[1..][k];
    }
    if RemoveChar(lines[0], ' ') == x {
      assert 0 < |lines|;
    }
  }

  /** The identifiers of consecutive runs of lines come in the order of the lines. */
  lemma {:induction false} PackIdsConcat(a: seq<string>, b: seq<string>)
    ensures PackIds(a + b) == PackIds(a) + PackIds(b)
  {
    if a == [] {
      assert a + b == b;
    } else {
      var x, t := a[0], a[1..];
      var h := if RemoveChar(x, ' ') == [] then [] else [RemoveChar(x, ' ')];
      assert a == [x] + t;
      assert a + b == [x] + (t + b);
      calc {
        PackIds(a + b);
      == { PackIdsCons(x, t + b); }
        h + PackIds(t + b);
      == { PackIdsConcat(t, b); }
        h + (PackIds(t) + PackIds(b));
      == { ConcatAssoc(h, PackIds(t), PackIds(b)); }
        (h + PackIds(t)) + PackIds(b);
      == { PackIdsCons(x, t); }
        PackIds(a) + PackIds(b);
      }
    }
  }

  lemma PackIdsCons(line: string, lines: seq<string>)
    ensures PackIds([line] + lines) ==
            (if RemoveChar(line, ' ') == [] then [] else [RemoveChar(line, ' ')]) + PackIds(lines)
  {
    assert ([line] + lines)[0] == line && ([line] + lines)[1..] == lines;
  }

  /** The install loop of installMissingPacks over the lines of the missing-pack listing. */
  function InstallEach(o: Oracle, lines: seq<string>): Step<()>
    decreases |lines|
  {
    if lines == [] then Step(Ok(()), [])
    else
      var pack := RemoveChar(lines[0], ' ');
      if pack == [] then InstallEach(o, lines[1..])
      else if !o.cpackgetFound then Step(Err(ToolNotFound), [])
      else if !o.cpackget(PackAddArgs(pack)) then Step(Err(ToolFailed), [CpackgetRun(PackAddArgs(pack))])
      else Prepend([CpackgetRun(PackAddArgs(pack))], InstallEach(o, lines[1..]))
  }

  /** The lines of the missing-pack listing: the trimmed text, CRLF normalised, split
      at line feeds. A blank listing is one empty line. */
  function MissingPackLines(output: string): (r: seq<string>)
    ensures forall k :: 0 <= k < |r| ==> '\n' !in r[k]
    ensures AllSpace(output) ==> r == [[]]
  {
    Split(ReplaceCRLF(TrimSpace(output)), '\n')
  }

  /** installMissingPacks: `list packs -m`, then one cpackget install per listed pack. */
  function InstallPacksStep(p: Params, o: Oracle): Step<()> {
    match Args(p, ["list", "packs"])
    case Err(e) => Step(Err(e), [])
    case Ok(args) =>
      var listing := CsolutionStep(o, args + ["-m"], false);
      match listing.res
      case Err(e) => Step(Err(e), listing.trace)
      case Ok(output) => Prepend(listing.trace, InstallEach(o, MissingPackLines(output)))
  }

  method InstallMissingPacks(p: Params, r: Runner) returns (res: Result<()>)
    modifies r
    ensures res == InstallPacksStep(p, r.oracle).res
    ensures r.log == old(r.log) + InstallPacksStep(p, r.oracle).trace
  {
    var args := FormulateArgs(p, ["list", "packs"]);
    if args.Err? {
      return Err(args.error);
    }
    var output := r.ExecuteCsolution(args.value + ["-m"], false);
    if output.Err? {
      return Err(output.error);
    }
    res := InstallEachPack(r, MissingPackLines(output.value));
    ConcatAssoc(old(r.log), CsolutionStep(r.oracle, args.value + ["-m"], false).trace,
                InstallEach(r.oracle, MissingPackLines(output.value)).trace);
  }

  /** The install loop of installMissingPacks: each non-blank line, stripped of
      spaces, is installed; a missing cpackget or a failed install ends the loop. */
  method InstallEachPack(r: Runner, lines: seq<string>) returns (res: Result<()>)
    modifies r
    ensures res == InstallEach(r.oracle, lines).res
    ensures r.log == old(r.log) + InstallEach(r.oracle, lines).trace
  {
    ghost var o := r.oracle;
    ghost var done: seq<Call> := [];
    var i := 0;
    while i < |lines|
      invariant 0 <= i <= |lines|
      invariant r.log == old(r.log) + done
      invariant InstallEach(o, lines) == Prepend(done, InstallEach(o, lines[i..]))
    {
      InstallStep(o, lines, i, done);
      var pack := RemoveChar(lines[i], ' ');
      if pack == "" {
        i := i + 1;
        continue;
      }
      var found := r.CpackgetFound();
      if !found {
        return Err(ToolNotFound);
      }
      var ok := r.ExecuteCpackget(PackAddArgs(pack));
      ConcatAssoc(old(r.log), done, [CpackgetRun(PackAddArgs(pack))]);
      if !ok {
        return Err(ToolFailed);
      }
      done := done + [CpackgetRun(PackAddArgs(pack))];
      i := i + 1;
    }
    assert lines[i..] == [];
    res := Ok(());
  }

  /** One iteration of the install loop, in terms of what the whole loop does. */
  lemma InstallStep(o: Oracle, lines: seq<string>, i: nat, done: seq<Call>)
    requires i < |lines|
    requires InstallEach(o, lines) == Prepend(done, InstallEach(o, lines[i..]))
    ensures var pack := RemoveChar(lines[i], ' ');
            pack == [] ==> InstallEach(o, lines) == Prepend(done, InstallEach(o, lines[i + 1..]))
    ensures var pack := RemoveChar(lines[i], ' ');
            pack != [] && !o.cpackgetFound ==> InstallEach(o, lines) == Step(Err(ToolNotFound), done)
    ensures var pack := RemoveChar(lines[i], ' ');
            pack != [] && o.cpackgetFound && !o.cpackget(PackAddArgs(pack)) ==>
              InstallEach(o, lines) == Step(Err(ToolFailed), done + [CpackgetRun(PackAddArgs(pack))])
    ensures var pack := RemoveChar(lines[i], ' ');
            pack != [] && o.cpackgetFound && o.cpackget(PackAddArgs(pack)) ==>
              InstallEach(o, lines) == Prepend(done + [CpackgetRun(PackAddArgs(pack))], InstallEach(o, lines[i + 1..]))
  {
    var rest := lines[i..];
    assert rest[0] == lines[i] && rest[1..] == lines[i + 1..];
    var pack := RemoveChar(lines[i], ' ');
    if pack != [] && o.cpackgetFound && o.cpackget(PackAddArgs(pack)) {
      ConcatAssoc(done, [CpackgetRun(PackAddArgs(pack))], InstallEach(o, lines[i + 1..]).trace);
    }
  }

  // ------------------------------------------------------ descriptor lookup

  /** The first index entry whose path contains the context. */
  function FirstMatch(entries: seq<string>, context: string): (r: Option<nat>)
    ensures r.None? <==> forall k :: 0 <= k < |entries| ==> !Contains(entries[k], context)
    ensures r.Some? ==> r.value < |entries| && Contains(entries[r.value], context) &&
                        forall k :: 0 <= k < r.value ==> !Contains(entries[k], context)
  {
    if entries == [] then None
    else if Contains(entries[0], context) then Some(0)
    else match FirstMatch(entries[1..], context)
      case None => None
      case Some(k) => Some(k + 1)
  }

  /** The descriptor path: the index directory, the matching entry's directory and `<context>.cprj`. */
  function CprjPath(idxFile: string, entry: string, context: string): string {
    Dir(idxFile) + "/" + Dir(entry) + "/" + context + ".cprj"
  }

  /** getCprjFilePath after the index is parsed. A matching entry that is itself
      empty leaves the path empty, which the source reports as not found. */
  function CprjFile(idxFile: string, entries: seq<string>, context: string): Result<string> {
    match FirstMatch(entries, context)
    case None => Err(CprjNotFound)
    case Some(k) => if entries[k] == "" then Err(CprjNotFound) else Ok(CprjPath(idxFile, entries[k], context))
  }

  /** The scan of getCprjFilePath, stopping at the first match. */
  method FindCprjFile(idxFile: string, entries: seq<string>, context: string) returns (res: Result<string>)
    ensures res.Err? ==> res.error == CprjNotFound
    ensures res.Ok? <==> exists k :: 0 <= k < |entries| && Contains(entries[k], context) && entries[k] != "" &&
                                     forall j :: 0 <= j < k ==> !Contains(entries[j], context)
    ensures res == CprjFile(idxFile, entries, context)
  {
    var path := "";
    var i := 0;
    while i < |entries|
      invariant 0 <= i <= |entries|
      invariant forall j :: 0 <= j < i ==> !Contains(entries[j], context)
    {
      if Contains(entries[i], context) {
        path := entries[i];
        break;
      }
      i := i + 1;
    }
    assert i < |entries| ==> FirstMatch(entries, context) == Some(i);
    if path == "" {
      res := Err(CprjNotFound);
    } else {
      res := Ok(Dir(idxFile) + "/" + Dir(path) + "/" + context + ".cprj");
    }
  }

  // ----------------------------------------------------------- processing

  /** The solution's base name: the first of exactly three dot-separated tokens of the file name. */
  function SolutionName(inputFile: string): Result<string> {
    var tokens := Split(Base(inputFile), '.');
    if |tokens| != 3 then Err(InvalidFileName) else Ok(tokens[0])
  }

  /** The file name must have exactly two dots; the name is what precedes the first. */
  lemma SolutionNameSpec(inputFile: string)
    ensures SolutionName(inputFile).Ok? <==> Count(Base(inputFile), '.') == 2
    ensures SolutionName(inputFile).Err? ==> SolutionName(inputFile).error == InvalidFileName
    ensures SolutionName(inputFile).Ok? ==>
              var name := SolutionName(inputFile).value;
              '.' !in name && StartsWith(Base(inputFile), name + ".")
  {
    var tokens := Split(Base(inputFile), '.');
    if |tokens| == 3 {
      JoinSplit(Base(inputFile), '.');
      assert Join(tokens, '.') == tokens[0] + "." + Join(tokens[1..], '.');
    }
  }

  /** The index document: `<output or dir(input)>/<name>.cbuild-idx.yml`. */
  function IndexFile(p: Params, name: string): string {
    var outputDir := if p.options.output != "" then p.options.output else Dir(p.inputFile);
    JoinPath([outputDir, name + ".cbuild-idx.yml"])
  }

  /** formulatePath: `dir(cprj)/<dir>/project[/buildType]/target`, as path elements. */
  function FormulatePath(cprjFile: string, dir: string, item: ContextItem): seq<string> {
    [Dir(cprjFile), dir, item.projectName] +
    (if item.buildType != "" then [item.buildType] else []) +
    [item.targetType]
  }

  /** The options handed to the per-project builder: the output and intermediate
      directories are derived from the descriptor path and the context. A context
      that does not parse gives empty tokens, which the join drops. */
  function ProjectOptions(o: Options, cprjFile: string, context: string): Options {
    var item := match ParseContext(context) case Ok(item) => item case Err(_) => ContextItem("", "", "");
    o.(outDir := JoinPath(FormulatePath(cprjFile, "out", item)),
       intDir := JoinPath(FormulatePath(cprjFile, "tmp", item)))
  }

  /** getCprjFilePath: parse the index document, then look the context up in it. */
  function CprjFileStep(o: Oracle, idxFile: string, context: string): Step<string> {
    match o.index(idxFile)
    case None => Step(Err(IndexUnreadable), [IndexRead(idxFile)])
    case Some(entries) => Step(CprjFile(idxFile, entries, context), [IndexRead(idxFile)])
  }

  method GetCprjFilePath(r: Runner, idxFile: string, context: string) returns (res: Result<string>)
    modifies r
    ensures res == CprjFileStep(r.oracle, idxFile, context).res
    ensures r.log == old(r.log) + CprjFileStep(r.oracle, idxFile, context).trace
  {
    var index := r.ParseIndexFile(idxFile);
    if index.None? {
      return Err(IndexUnreadable);
    }
    res := FindCprjFile(idxFile, index.value, context);
  }

  /** processContext: locate the project descriptor of the context through the
      index document, then hand it to the per-project builder with the derived
      output and intermediate directories. */
  function ProcessContextStep(p: Params, o: Oracle, context: string): Step<()> {
    match SolutionName(p.inputFile)
    case Err(e) => Step(Err(e), [])
    case Ok(name) =>
      var lookup := CprjFileStep(o, IndexFile(p, name), context);
      match lookup.res
      case Err(e) => Step(Err(e), lookup.trace)
      case Ok(cprjFile) =>
        var options := ProjectOptions(p.options, cprjFile, context);
        var call := ProjectBuild(cprjFile, options);
        Step(o.project(cprjFile, options), lookup.trace + [call])
  }

  method ProcessContext(p: Params, r: Runner, context: string) returns (res: Result<()>)
    modifies r
    ensures res == ProcessContextStep(p, r.oracle, context).res
    ensures r.log == old(r.log) + ProcessContextStep(p, r.oracle, context).trace
  {
    var name := SolutionName(p.inputFile);
    if name.Err? {
      return Err(name.error);
    }
    var cprjFile := GetCprjFilePath(r, IndexFile(p, name.value), context);
    if cprjFile.Err? {
      return Err(cprjFile.error);
    }
    var options := ProjectOptions(p.options, cprjFile.value, context);
    res := r.BuildProject(cprjFile.value, options);
    ConcatAssoc(old(r.log), CprjFileStep(r.oracle, IndexFile(p, name.value), context).trace,
                [ProjectBuild(cprjFile.value, options)]);
  }

  /** The context loop of Build: in order, stopping at the first failure. */
  function ProcessAll(p: Params, o: Oracle, contexts: seq<string>): Step<()>
    decreases |contexts|
  {
    if contexts == [] then Step(Ok(()), [])
    else
      var first := ProcessContextStep(p, o, contexts[0]);
      if first.res.Err? then first
      else Prepend(first.trace, ProcessAll(p, o, contexts[1..]))
  }

  // ---------------------------------------------------------------- build

  /** Conversion and processing, once the selection is known: packs (when asked
      for), then `convert` once, then the contexts. */
  function ConvertAndProcess(p: Params, o: Oracle, contexts: seq<string>): Step<()> {
    match Args(p, ["convert"])
    case Err(e) => Step(Err(e), [])
    case Ok(args) =>
      var packs := if p.options.packs then InstallPacksStep(p, o) else Step(Ok(()), []);
      if packs.res.Err? then packs
      else
        var convert := CsolutionStep(o, args, false);
        if convert.res.Err? then Step(Err(convert.res.error), packs.trace + convert.trace)
        else Prepend(packs.trace + convert.trace, ProcessAll(p, o, contexts))
  }

  /** Build: list the contexts in declaration order, select, then convert and process. */
  function BuildStep(p: Params, o: Oracle): Step<()> {
    var listing := ListContextsStep(p, o, true, true);
    match listing.res
    case Err(e) => Step(Err(e), listing.trace)
    case Ok(allContexts) =>
      match Selection(p.options, allContexts)
      case Err(e) => Step(Err(e), listing.trace)
      case Ok(selected) =>
        Prepend(listing.trace, ConvertAndProcess(p.(options := p.options.(context := selected.context)), o, selected.contexts))
  }

  method Build(p: Params, r: Runner) returns (res: Result<()>)
    modifies r
    ensures res == BuildStep(p, r.oracle).res
    ensures r.log == old(r.log) + BuildStep(p, r.oracle).trace
  {
    var allContexts := ListContexts(p, r, true, true);
    if allContexts.Err? {
      return Err(allContexts.error);
    }
    var selected := Selection(p.options, allContexts.value);
    if selected.Err? {
      return Err(selected.error);
    }
    var b := p.(options := p.options.(context := selected.value.context));
    res := ConvertAndProcessContexts(b, r, selected.value.contexts);
    ConcatAssoc(old(r.log), ListContextsStep(p, r.oracle, true, true).trace,
                ConvertAndProcess(b, r.oracle, selected.value.contexts).trace);
  }

  /** The part of Build after the selection: arguments, packs, conversion, and the
      loop over the selected contexts that stops at the first failure. */
  method ConvertAndProcessContexts(b: Params, r: Runner, contexts: seq<string>) returns (res: Result<()>)
    modifies r
    ensures res == ConvertAndProcess(b, r.oracle, contexts).res
    ensures r.log == old(r.log) + ConvertAndProcess(b, r.oracle, contexts).trace
  {
    var args := FormulateArgs(b, ["convert"]);
    if args.Err? {
      return Err(args.error);
    }
    ghost var o := r.oracle;
    ghost var packs := if b.options.packs then InstallPacksStep(b, o) else Step(Ok(()), []);
    if b.options.packs {
      var installed := InstallMissingPacks(b, r);
      if installed.Err? {
        return installed;
      }
    }
    assert r.log == old(r.log) + packs.trace;
    var converted := r.ExecuteCsolution(args.value, false);
    ghost var convert := CsolutionStep(o, args.value, false);
    ConcatAssoc(old(r.log), packs.trace, convert.trace);
    if converted.Err? {
      return Err(converted.error);
    }
    res := ProcessContexts(b, r, contexts);
    ConcatAssoc(old(r.log), packs.trace + convert.trace, ProcessAll(b, o, contexts).trace);
  }

  /** Step two of Build: the selected contexts in order, stopping at the first failure. */
  method ProcessContexts(b: Params, r: Runner, contexts: seq<string>) returns (res: Result<()>)
    modifies r
    ensures res == ProcessAll(b, r.oracle, contexts).res
    ensures r.log == old(r.log) + ProcessAll(b, r.oracle, contexts).trace
  {
    ghost var o := r.oracle;
    ghost var done: seq<Call> := [];
    var i := 0;
    while i < |contexts|
      invariant 0 <= i <= |contexts|
      invariant r.log == old(r.log) + done
      invariant ProcessAll(b, o, contexts) == Prepend(done, ProcessAll(b, o, contexts[i..]))
    {
      var err := ProcessContext(b, r, contexts[i]);
      FailFastStep(b, o, contexts, i, done);
      ConcatAssoc(old(r.log), done, ProcessContextStep(b, o, contexts[i]).trace);
      if err.Err? {
        return err;
      }
      done := done + ProcessContextStep(b, o, contexts[i]).trace;
      i := i + 1;
    }
    assert contexts[i..] == [];
    res := Ok(());
  }

  /** One iteration of the context loop: a failing context ends the loop with its
      result, a successful one continues with the rest. */
  lemma FailFastStep(b: Params, o: Oracle, contexts: seq<string>, i: nat, done: seq<Call>)
    requires i < |contexts|
    requires ProcessAll(b, o, contexts) == Prepend(done, ProcessAll(b, o, contexts[i..]))
    ensures ProcessContextStep(b, o, contexts[i]).res.Err? ==>
              ProcessAll(b, o, contexts).res == ProcessContextStep(b, o, contexts[i]).res &&
              done + ProcessContextStep(b, o, contexts[i]).trace == ProcessAll(b, o, contexts).trace
    ensures ProcessContextStep(b, o, contexts[i]).res.Ok? ==>
              ProcessAll(b, o, contexts) == Prepend(done + ProcessContextStep(b, o, contexts[i]).trace, ProcessAll(b, o, contexts[i + 1..]))
  {
    var rest := contexts[i..];
    assert rest[0] == contexts[i] && rest[1..] == contexts[i + 1..];
    var first := ProcessContextStep(b, o, contexts[i]);
    if first.res.Ok? {
      ConcatAssoc(done, first.trace, ProcessAll(b, o, contexts[i + 1..]).trace);
    }
  }



}

=== FILE: contexts.dfy ===
/** Context identifiers `project[.buildType]+targetType`, their configuration
    suffix, and selecting the contexts of one configuration. The source's
    utils.ParseContext, CreateContext and GetSelectedContexts are not part of
    this model; they are defined here from the context grammar. */
module Contexts {
  import opened Errors
  import opened Strings

  datatype ContextItem = ContextItem(projectName: string, buildType: string, targetType: string)

  /** A token of the grammar never holds one of the delimiters. */
  predicate IsToken(t: string) {
    '.' !in t && '+' !in t
  }

  predicate WellFormedItem(item: ContextItem) {
    item.projectName != [] && item.targetType != [] &&
    IsToken(item.projectName) && IsToken(item.buildType) && IsToken(item.targetType)
  }

  /** The grammar `project[.buildType]+targetType` with non-empty tokens, stated on the text. */
  predicate WellFormedContext(s: string) {
    var p := IndexOf(s, '+');
    var d := IndexOf(s, '.');
    0 < p < |s| - 1 && IsToken(s[p + 1..]) &&
    (d == -1 || (0 < d < p - 1 && '.' !in s[d + 1..]))
  }

  /** Splits off the target type after the last '+', then the build type after the first '.'.
      Fails when there is no '+' or nothing follows the last one. */
  function ParseContext(s: string): (r: Result<ContextItem>)
    ensures r.Ok? <==> '+' in s && s[|s| - 1] != '+'
    ensures r.Ok? ==> r.value.targetType != [] && '+' !in r.value.targetType && '.' !in r.value.projectName
    ensures r.Ok? ==> |r.value.targetType| < |s| && s[|s| - |r.value.targetType|..] == r.value.targetType
  {
    var plus := LastIndexOf(s, '+');
    if plus == -1 || plus == |s| - 1 then Err(InvalidContext)
    else Ok(SplitBuildType(s[..plus], s[plus + 1..]))
  }

  /** The project name and build type of the text before the target delimiter. */
  function SplitBuildType(head: string, target: string): (item: ContextItem)
    ensures item.targetType == target && '.' !in item.projectName
  {
    var dot := IndexOf(head, '.');
    if dot == -1 then ContextItem(head, "", target)
    else ContextItem(head[..dot], head[dot + 1..], target)
  }

  /** The configuration part of a formatted context: `[.buildType]+targetType`. */
  function ConfigurationPart(item: ContextItem): string {
    (if item.buildType == [] then "" else "." + item.buildType) + "+" + item.targetType
  }

  function FormatContext(item: ContextItem): string {
    item.projectName + ConfigurationPart(item)
  }

  /** Formats an item; an item without a project or a target type is refused. */
  function CreateContext(item: ContextItem): (r: Result<string>)
    ensures r.Ok? <==> item.projectName != [] && item.targetType != []
    ensures r.Ok? ==> |r.value| > |item.projectName| + |item.targetType|
    ensures r.Ok? ==> r.value[..|item.projectName|] == item.projectName
    ensures r.Ok? ==> r.value[|r.value| - |item.targetType| - 1..] == "+" + item.targetType
  {
    if item.projectName == [] || item.targetType == [] then Err(InvalidContext)
    else Ok(FormatContext(item))
  }

  /** Formatting a well-formed item gives a well-formed context that parses back to it. */
  lemma FormatParse(item: ContextItem)
    requires WellFormedItem(item)
    ensures CreateContext(item) == Ok(FormatContext(item))
    ensures ParseContext(FormatContext(item)) == Ok(item)
    ensures WellFormedContext(FormatContext(item))
  {
    var s := FormatContext(item);
    var plus := |s| - |item.targetType| - 1;
    assert s[plus] == '+' && s[plus + 1..] == item.targetType;
    LastIndexOfAt(s, '+', plus);
    if item.buildType == [] {
      FormatParseNoBuildType(item);
    } else {
      FormatParseBuildType(item);
    }
  }

  lemma FormatParseNoBuildType(item: ContextItem)
    requires WellFormedItem(item) && item.buildType == []
    requires LastIndexOf(FormatContext(item), '+') == |item.projectName|
    ensures ParseContext(FormatContext(item)) == Ok(item)
    ensures WellFormedContext(FormatContext(item))
  {
    var s := FormatContext(item);
    assert s == item.projectName + "+" + item.targetType;
    ParseTwoTokens(item.projectName, item.targetType);
    TwoTokensWellFormed(item.projectName, item.targetType);
  }

  lemma ParseTwoTokens(pr: string, t: string)
    requires IsToken(pr) && IsToken(t) && t != []
    requires LastIndexOf(pr + "+" + t, '+') == |pr|
    ensures ParseContext(pr + "+" + t) == Ok(ContextItem(pr, "", t))
  {
    var s := pr + "+" + t;
    assert s[..|pr|] == pr && s[|pr| + 1..] == t;
  }

  lemma TwoTokensWellFormed(pr: string, t: string)
    requires IsToken(pr) && IsToken(t) && t != [] && pr != []
    ensures WellFormedContext(pr + "+" + t)
  {
    var s := pr + "+" + t;
    assert s[..|pr|] == pr && s[|pr| + 1..] == t;
    IndexOfAt(s, '+', |pr|);
    assert '.' !in s by {
      assert s == pr + ("+" + t);
    }
  }

  lemma FormatParseBuildType(item: ContextItem)
    requires WellFormedItem(item) && item.buildType != []
    requires LastIndexOf(FormatContext(item), '+') == |item.projectName| + 1 + |item.buildType|
    ensures ParseContext(FormatContext(item)) == Ok(item)
    ensures WellFormedContext(FormatContext(item))
  {
    var s := FormatContext(item);
    assert s == item.projectName + "." + item.buildType + "+" + item.targetType;
    ParseThreeTokens(item.projectName, item.buildType, item.targetType);
    ThreeTokensWellFormed(item.projectName, item.buildType, item.targetType);
  }

  lemma ParseThreeTokens(pr: string, b: string, t: string)
    requires IsToken(pr) && IsToken(b) && IsToken(t) && t != []
    requires LastIndexOf(pr + "." + b + "+" + t, '+') == |pr| + 1 + |b|
    ensures ParseContext(pr + "." + b + "+" + t) == Ok(ContextItem(pr, b, t))
  {
    var s := pr + "." + b + "+" + t;
    var plus := |pr| + 1 + |b|;
    var head := s[..plus];
    assert head == pr + "." + b;
    assert head[..|pr|] == pr;
    assert head[|pr| + 1..] == b;
    assert s[plus + 1..] == t;
    IndexOfAt(head, '.', |pr|);
    ParseWithBuildType(s, plus, |pr|);
    assert ParseContext(s) == Ok(ContextItem(pr, b, t));
  }

  lemma ParseWithBuildType(s: string, plus: nat, dot: nat)
    requires plus < |s| - 1 && LastIndexOf(s, '+') == plus
    requires dot < plus && IndexOf(s[..plus], '.') == dot
    ensures ParseContext(s) == Ok(ContextItem(s[..plus][..dot], s[..plus][dot + 1..], s[plus + 1..]))
  {
    assert SplitBuildType(s[..plus], s[plus + 1..]) == ContextItem(s[..plus][..dot], s[..plus][dot + 1..], s[plus + 1..]);
  }

  lemma ThreeTokensWellFormed(pr: string, b: string, t: string)
    requires IsToken(pr) && IsToken(b) && IsToken(t) && t != [] && pr != [] && b != []
    ensures WellFormedContext(pr + "." + b + "+" + t)
  {
    var s := pr + "." + b + "+" + t;
    var plus := |pr| + 1 + |b|;
    assert s[..|pr|] == pr;
    IndexOfAt(s, '.', |pr|);
    assert s[..plus] == pr + "." + b;
    assert '+' !in s[..plus];
    IndexOfAt(s, '+', plus);
    assert s[plus + 1..] == t;
    assert s[|pr| + 1..] == b + "+" + t;
  }

  /** A well-formed context parses to a well-formed item that formats back to the same text. */
  lemma ParseFormat(s: string)
    requires WellFormedContext(s)
    ensures ParseContext(s).Ok?
    ensures WellFormedItem(ParseContext(s).value)
    ensures CreateContext(ParseContext(s).value) == Ok(s)
  {
    var p := IndexOf(s, '+');
    assert '+' !in s[p + 1..];
    LastIndexOfAt(s, '+', p);
    if IndexOf(s, '.') == -1 {
      ParseFormatNoBuildType(s, p);
    } else {
      ParseFormatBuildType(s, p, IndexOf(s, '.'));
    }
  }

  lemma ParseFormatNoBuildType(s: string, p: nat)
    requires WellFormedContext(s) && p == IndexOf(s, '+') && LastIndexOf(s, '+') == p
    requires '.' !in s
    ensures ParseContext(s).Ok?
    ensures WellFormedItem(ParseContext(s).value)
    ensures CreateContext(ParseContext(s).value) == Ok(s)
  {
    ParseAtPlus(s, p);
    TokensAtPlus(s, p);
    FormatAtPlus(s, p);
  }

  lemma ParseAtPlus(s: string, p: nat)
    requires p < |s| - 1 && LastIndexOf(s, '+') == p
    requires '.' !in s
    ensures ParseContext(s) == Ok(ContextItem(s[..p], "", s[p + 1..]))
  {
    assert '.' !in s[..p];
  }

  lemma TokensAtPlus(s: string, p: nat)
    requires 0 < p < |s| - 1 && s[p] == '+'
    requires '.' !in s && '+' !in s[..p] && '+' !in s[p + 1..]
    ensures WellFormedItem(ContextItem(s[..p], "", s[p + 1..]))
  {
  }

  lemma FormatAtPlus(s: string, p: nat)
    requires 0 < p < |s| - 1 && s[p] == '+'
    ensures FormatContext(ContextItem(s[..p], "", s[p + 1..])) == s
  {
    assert s == s[..p] + "+" + s[p + 1..];
  }

  lemma ParseFormatBuildType(s: string, p: nat, d: nat)
    requires WellFormedContext(s) && p == IndexOf(s, '+') && LastIndexOf(s, '+') == p
    requires d == IndexOf(s, '.')
    ensures ParseContext(s).Ok?
    ensures WellFormedItem(ParseContext(s).value)
    ensures CreateContext(ParseContext(s).value) == Ok(s)
  {
    assert s[..p][..d] == s[..d];
    IndexOfAt(s[..p], '.', d);
    ParseWithBuildType(s, p, d);
    TokensAtDot(s, p, d);
    FormatAtDot(s, p, d);
  }

  lemma TokensAtDot(s: string, p: nat, d: nat)
    requires 0 < d < p - 1 && p < |s| - 1
    requires '+' !in s[..p] && IsToken(s[p + 1..])
    requires '.' !in s[..d] && '.' !in s[d + 1..]
    ensures WellFormedItem(ContextItem(s[..p][..d], s[..p][d + 1..], s[p + 1..]))
  {
    var head := s[..p];
    assert head[..d] == s[..d];
    assert '+' !in head[..d] by {
      forall k | 0 <= k < d ensures head[..d][k] != '+' { assert head[..d][k] == head[k]; }
    }
    var b := head[d + 1..];
    forall k | 0 <= k < |b| ensures b[k] != '.' && b[k] != '+' {
      assert b[k] == s[d + 1..][k] && b[k] == head[d + 1 + k];
    }
  }

  lemma FormatAtDot(s: string, p: nat, d: nat)
    requires 0 < d < p - 1 && p < |s| - 1 && s[p] == '+' && s[d] == '.'
    ensures FormatContext(ContextItem(s[..p][..d], s[..p][d + 1..], s[p + 1..])) == s
  {
    assert s == s[..p][..d] + "." + s[..p][d + 1..] + "+" + s[p + 1..];
  }

  /** The configuration of a context: the suffix from its first '.', or else from its first '+';
      none when the context holds neither. */
  function ConfigurationOf(context: string): (r: Option<string>)
    ensures r.None? <==> '.' !in context && '+' !in context
    ensures r.Some? ==> 1 <= |r.value| <= |context| && r.value == context[|context| - |r.value|..]
    ensures r.Some? ==> '.' !in context[..|context| - |r.value|]
    ensures r.Some? && r.value[0] == '+' ==> '.' !in context && '+' !in context[..|context| - |r.value|]
    ensures r.Some? ==> r.value[0] == '.' || r.value[0] == '+'
  {
    var buildIdx := IndexOf(context, '.');
    var targetIdx := IndexOf(context, '+');
    if buildIdx == -1 && targetIdx == -1 then None
    else if buildIdx != -1 then Some(context[buildIdx..])
    else Some(context[targetIdx..])
  }

  /** A well-formed context is its project name followed by its configuration. */
  lemma ConfigurationOfFormat(item: ContextItem)
    requires WellFormedItem(item)
    ensures ConfigurationOf(FormatContext(item)) == Some(ConfigurationPart(item))
  {
    var s := FormatContext(item);
    var p := item.projectName;
    assert s[..|p|] == p;
    assert s[|p|] == ConfigurationPart(item)[0];
    if item.buildType != [] {
      IndexOfAt(s, '.', |p|);
    } else {
      IndexOfAt(s, '+', |p|);
      assert '.' !in s[|p|..] by {
        assert s[|p|..] == "+" + item.targetType;
      }
      assert s == s[..|p|] + s[|p|..];
    }
    assert s[|p|..] == ConfigurationPart(item);
  }

  /** A well-formed context is among the contexts of its own configuration exactly
      when the catalog lists it. */
  lemma SelectedByOwnConfiguration(contexts: seq<string>, item: ContextItem)
    requires WellFormedItem(item)
    ensures FormatContext(item) in WithConfiguration(contexts, ConfigurationPart(item)) <==>
            FormatContext(item) in contexts
  {
    ConfigurationOfFormat(item);
  }

  predicate HasConfiguration(context: string, configuration: string) {
    ConfigurationOf(context) == Some(configuration)
  }

  /** The contexts whose configuration is exactly the given one, in catalog order. */
  function WithConfiguration(contexts: seq<string>, configuration: string): (r: seq<string>)
    ensures |r| <= |contexts|
    ensures forall c :: c in r <==> c in contexts && HasConfiguration(c, configuration)
  {
    if contexts == [] then []
    else
      (if HasConfiguration(contexts[0], configuration) then [contexts[0]] else [])
      + WithConfiguration(contexts[1..], configuration)
  }

  /** The contexts kept from a concatenated catalog are those kept from each part, in
      order: the selection keeps the catalog's declaration order. */
  lemma {:induction false} WithConfigurationConcat(a: seq<string>, b: seq<string>, configuration: string)
    ensures WithConfiguration(a + b, configuration) == WithConfiguration(a, configuration) + WithConfiguration(b, configuration)
  {
    if a == [] {
      assert a + b == b;
    } else {
      var h := if HasConfiguration(a[0], configuration) then [a[0]] else [];
      calc {
        WithConfiguration(a + b, configuration);
      == { assert a + b == [a[0]] + (a[1..] + b); WithConfigurationCons(a[0], a[1..] + b, configuration); }
        h + WithConfiguration(a[1..] + b, configuration);
      == { WithConfigurationConcat(a[1..], b, configuration); }
        h + (WithConfiguration(a[1..], configuration) + WithConfiguration(b, configuration));
      ==
        (h + WithConfiguration(a[1..], configuration)) + WithConfiguration(b, configuration);
      == { assert a == [a[0]] + a[1..]; WithConfigurationCons(a[0], a[1..], configuration); }
        WithConfiguration(a, configuration) + WithConfiguration(b, configuration);
      }
    }
  }

  lemma WithConfigurationCons(c: string, s: seq<string>, configuration: string)
    ensures WithConfiguration([c] + s, configuration) ==
            (if HasConfiguration(c, configuration) then [c] else []) + WithConfiguration(s, configuration)
  {
    assert ([c] + s)[0] == c && ([c] + s)[1..] == s;
  }

  /** utils.GetSelectedContexts: the contexts of one configuration; none is an error. */
  function SelectedContexts(contexts: seq<string>, configuration: string): (r: Result<seq<string>>)
    ensures r.Err? <==> forall c :: c in contexts ==> !HasConfiguration(c, configuration)
    ensures r.Ok? ==> r.value != [] && forall c :: c in r.value <==> c in contexts && HasConfiguration(c, configuration)
    ensures r.Ok? ==> r.value == WithConfiguration(contexts, configuration)
  {
    var selected := WithConfiguration(contexts, configuration);
    if selected == [] then Err(ConfigurationNotFound)
    else
      assert selected[0] in selected;
      Ok(selected)
  }
}

=== FILE: errors.dfy ===
/** Error outcomes of the solution builder and the result wrappers that carry them. */
module Errors {

  /** The distinct failures the builder reports. The source reports each as an
      error message; the model keeps one constructor per message. */
  datatype Error =
    | OptionsConflict            // '--context' and '--configuration' given together
    | ToolNotFound               // csolution or cpackget binary absent
    | ToolFailed                 // a tool invocation exited with an error
    | InvalidContext             // a context string that does not parse or format
    | ContextNotFound            // a valid context missing from the catalog
    | ConfigurationNotFound      // no context has the requested configuration
    | ConfigurationsListFailed   // "processing configurations list failed"
    | InvalidFileName            // solution file name without exactly three tokens
    | IndexUnreadable            // the build index document did not parse
    | CprjNotFound               // "cprj file path not found"
    | ProjectError(message: string) // an error raised by the per-project builder

  datatype Result<+T> = Ok(value: T) | Err(error: Error)

  datatype Option<+T> = None | Some(value: T)
}

=== FILE: paths.dfy ===
/** File paths as the builder composes them with path/filepath: Dir, Base and Join,
    over '/'-separated strings. Lexical cleaning ("a/./b", "a//b", "a/../b") is not
    modelled: the paths the builder composes are taken as already clean. */
module Paths {
  import opened Strings

  /** filepath.Dir: everything before the last '/', "." when there is none and
      "/" when the only separator is the leading one. */
  function Dir(p: string): string {
    var i := LastIndexOf(p, '/');
    if i == -1 then "." else if i == 0 then "/" else p[..i]
  }

  /** filepath.Base: everything after the last '/', "." for the empty path. */
  function Base(p: string): (b: string)
    ensures '/' !in b
  {
    if p == [] then "." else p[LastIndexOf(p, '/') + 1..]
  }

  /** The last element is the whole text after the last separator: a suffix that is
      either the whole path or preceded by a '/'. */
  lemma BaseSuffix(p: string)
    ensures p == [] ==> Base(p) == "."
    ensures p != [] ==> var b := Base(p);
              |b| <= |p| && b == p[|p| - |b|..] && (|b| == |p| || p[|p| - |b| - 1] == '/')
  {
    if p != [] {
      var i := LastIndexOf(p, '/');
      assert Base(p) == p[i + 1..] && |p[i + 1..]| == |p| - i - 1;
    }
  }

  /** Dir and Base split a path at its last separator: without one, the directory is
      "."; with one, the path is the directory, a '/' and the last element, except for
      a path whose only separator leads it, whose directory is "/". */
  lemma DirBaseSplit(p: string)
    ensures Dir(p) != []
    ensures '/' !in p ==> Dir(p) == "."
    ensures '/' in p ==> p == Dir(p) + "/" + Base(p) || (Dir(p) == "/" && p == "/" + Base(p))
  {
    var i := LastIndexOf(p, '/');
    if i != -1 {
      assert p == p[..i] + "/" + p[i + 1..];
    }
  }

  /** A path below a non-empty directory splits back into that directory and its last element. */
  lemma DirBaseOfChild(d: string, name: string)
    requires d != [] && name != [] && '/' !in name
    ensures Dir(d + "/" + name) == d
    ensures Base(d + "/" + name) == name
  {
    var p := d + "/" + name;
    assert p[|d| + 1..] == name;
    LastIndexOfAt(p, '/', |d|);
    assert p[..|d|] == d;
  }

  /** Dir and Base of a path with a separator after its first character put it back together. */
  lemma {:induction false} DirBase(p: string)
    requires LastIndexOf(p, '/') > 0
    ensures Dir(p) + "/" + Base(p) == p
  {
    var i := LastIndexOf(p, '/');
    assert p == p[..i] + [p[i]] + p[i + 1..];
  }

  /** The elements of a join that are not empty. */
  function NonEmpty(segs: seq<string>): (r: seq<string>)
    ensures forall k :: 0 <= k < |r| ==> r[k] != []
  {
    if segs == [] then []
    else (if segs[0] == [] then [] else [segs[0]]) + NonEmpty(segs[1..])
  }

  /** Every non-empty element is kept, as often as it occurs. */
  lemma {:induction false} NonEmptyCounts(segs: seq<string>, x: string)
    requires x != []
    ensures multiset(NonEmpty(segs))[x] == multiset(segs)[x]
  {
    if segs != [] {
      var h := if segs[0] == [] then [] else [segs[0]];
      calc {
        multiset(NonEmpty(segs))[x];
      == { assert segs == [segs[0]] + segs[1..]; NonEmptyCons(segs[0], segs[1..]); }
        multiset(h + NonEmpty(segs[1..]))[x];
      ==
        multiset(h)[x] + multiset(NonEmpty(segs[1..]))[x];
      == { NonEmptyCounts(segs[1..], x); }
        multiset(h)[x] + multiset(segs[1..])[x];
      == { assert segs == [segs[0]] + segs[1..]; }
        multiset(segs)[x];
      }
    }
  }

  /** A join whose elements are all non-empty keeps every one of them. */
  lemma {:induction false} NonEmptyKeepsAll(segs: seq<string>)
    requires forall k :: 0 <= k < |segs| ==> segs[k] != []
    ensures NonEmpty(segs) == segs
  {
    if segs != [] {
      NonEmptyKeepsAll(segs[1..]);
      assert segs == [segs[0]] + segs[1..];
      NonEmptyCons(segs[0], segs[1..]);
    }
  }

  /** The elements kept from a concatenation are those kept from each part, in order. */
  lemma {:induction false} NonEmptyConcat(a: seq<string>, b: seq<string>)
    ensures NonEmpty(a + b) == NonEmpty(a) + NonEmpty(b)
  {
    if a == [] {
      assert a + b == b;
    } else {
      var h := if a[0] == [] then [] else [a[0]];
      calc {
        NonEmpty(a + b);
      == { assert a + b == [a[0]] + (a[1..] + b); NonEmptyCons(a[0], a[1..] + b); }
        h + NonEmpty(a[1..] + b);
      == { NonEmptyConcat(a[1..], b); }
        h + (NonEmpty(a[1..]) + NonEmpty(b));
      ==
        (h + NonEmpty(a[1..])) + NonEmpty(b);
      == { assert a == [a[0]] + a[1..]; NonEmptyCons(a[0], a[1..]); }
        NonEmpty(a) + NonEmpty(b);
      }
    }
  }

  lemma NonEmptyCons(x: string, s: seq<string>)
    ensures NonEmpty([x] + s) == (if x == [] then [] else [x]) + NonEmpty(s)
  {
    assert ([x] + s)[0] == x && ([x] + s)[1..] == s;
  }

  /** filepath.Join: the non-empty elements separated by '/'. */
  function JoinPath(segs: seq<string>): string {
    Join(NonEmpty(segs), '/')
  }

  /** A joined path of plain, non-empty elements splits back into exactly those elements. */
  lemma JoinPathSplits(segs: seq<string>)
    requires |segs| >= 1
    requires forall k :: 0 <= k < |segs| ==> segs[k] != [] && '/' !in segs[k]
    ensures Split(JoinPath(segs), '/') == segs
  {
    NonEmptyKeepsAll(segs);
    SplitJoin(segs, '/');
  }
}

=== FILE: properties.dfy ===
/** Properties of the solution builder model that relate several operations or
    hold for every input: the argument vector, the parsing of the tool listings,
    the configuration list, the selection, the descriptor lookup, the derived
    directories and the order of the delegated calls of a build. */
module CSolutionProperties {
  import opened Errors
  import opened Strings
  import opened Paths
  import opened Contexts
  import opened CSolution

  // ------------------------------------------------------- argument vector

  /** A flag is among the first k exactly when its rank is below k and the options ask for it. */
  lemma {:induction false} FlagsBelowMembers(p: Params, k: nat, f: Flag)
    ensures f in FlagsBelow(p, k) <==> Rank(f) < k && FlagAt(p, Rank(f)) == Some(f)
  {
    if k > 0 {
      FlagsBelowMembers(p, k - 1, f);
      assert f in FlagSeq(p, k - 1) <==> FlagAt(p, k - 1) == Some(f);
    }
  }

  /** The first k flags come by strictly increasing rank, each below k. */
  lemma {:induction false} FlagsBelowRanks(p: Params, k: nat)
    ensures forall i :: 0 <= i < |FlagsBelow(p, k)| ==> Rank(FlagsBelow(p, k)[i]) < k
    ensures forall i, j :: 0 <= i < j < |FlagsBelow(p, k)| ==> Rank(FlagsBelow(p, k)[i]) < Rank(FlagsBelow(p, k)[j])
  {
    if k > 0 {
      FlagsBelowRanks(p, k - 1);
    }
  }

  /** The flags appear in the fixed order of the argument vector, so none appears twice. */
  lemma FlagsOrdered(p: Params)
    ensures forall i, j :: 0 <= i < j < |Flags(p)| ==> Rank(Flags(p)[i]) < Rank(Flags(p)[j])
    ensures |Flags(p)| <= 9
  {
    FlagsBelowRanks(p, 9);
    FlagsBelowLength(p, 9);
  }

  lemma {:induction false} FlagsBelowLength(p: Params, k: nat)
    ensures |FlagsBelow(p, k)| <= k
  {
    if k > 0 {
      FlagsBelowLength(p, k - 1);
    }
  }

  /** Each option contributes its flag exactly when it is set, the two checks
      exactly when they are switched off. */
  lemma FlagsPresence(p: Params)
    ensures Solution(p.inputFile) in Flags(p) <==> p.inputFile != ""
    ensures Output(p.options.output) in Flags(p) <==> p.options.output != ""
    ensures Load(p.options.load) in Flags(p) <==> p.options.load != ""
    ensures NoCheckSchema in Flags(p) <==> !p.options.schema
    ensures NoUpdateRte in Flags(p) <==> !p.options.updateRte
    ensures ContextConfiguration(p.options.configuration) in Flags(p) <==> p.options.configuration != ""
    ensures ContextName(p.options.context) in Flags(p) <==> p.options.context != ""
    ensures Filter(p.options.filter) in Flags(p) <==> p.options.filter != ""
    ensures Verbose in Flags(p) <==> p.options.verbose
    ensures forall f :: f in Flags(p) ==> FlagAt(p, Rank(f)) == Some(f)
  {
    FlagsBelowMembers(p, 9, Solution(p.inputFile));
    FlagsBelowMembers(p, 9, Output(p.options.output));
    FlagsBelowMembers(p, 9, Load(p.options.load));
    FlagsBelowMembers(p, 9, NoCheckSchema);
    FlagsBelowMembers(p, 9, NoUpdateRte);
    FlagsBelowMembers(p, 9, ContextConfiguration(p.options.configuration));
    FlagsBelowMembers(p, 9, ContextName(p.options.context));
    FlagsBelowMembers(p, 9, Filter(p.options.filter));
    FlagsBelowMembers(p, 9, Verbose);
    forall f | f in Flags(p) ensures FlagAt(p, Rank(f)) == Some(f) {
      FlagsBelowMembers(p, 9, f);
    }
  }

  // -------------------------------------------------------- tool listings

  predicate NoSpace(s: string) {
    forall i :: 0 <= i < |s| ==> !IsSpace(s[i])
  }

  /** Listing entries as a tool prints them: none holds white space and the first
      and the last are not blank (blank entries in between are allowed). */
  predicate PlainLines(lines: seq<string>) {
    |lines| >= 1 && lines[0] != [] && lines[|lines| - 1] != [] &&
    forall k :: 0 <= k < |lines| ==> NoSpace(lines[k])
  }

  /** Entries printed one per line, with LF or with CRLF line endings. */
  function Printed(lines: seq<string>, crlf: bool): string {
    if crlf then ToCRLF(Join(lines, '\n')) else Join(lines, '\n')
  }

  /** A printed listing: no blank, white space only at line ends, and CRLF
      normalisation gives the LF text of the entries. */
  predicate PrintedText(lines: seq<string>, m: string) {
    ' ' !in m && m != [] && !IsSpace(m[0]) && !IsSpace(m[|m| - 1]) &&
    ReplaceCRLF(m) == Join(lines, '\n')
  }

  /** The listing parse gives back the printed entries, with LF or with CRLF line
      endings and whatever white space surrounds the text. */
  lemma ToolListRoundTrip(lines: seq<string>, before: string, after: string, crlf: bool)
    requires PlainLines(lines) && AllSpace(before) && AllSpace(after)
    ensures ParseToolList(before + Printed(lines, crlf) + after) == lines
  {
    ListingText(lines, crlf);
    ParsePrinted(lines, before, Printed(lines, crlf), after);
  }

  lemma ParsePrinted(lines: seq<string>, before: string, m: string, after: string)
    requires PlainLines(lines) && AllSpace(before) && AllSpace(after) && PrintedText(lines, m)
    ensures ParseToolList(before + m + after) == lines
  {
    calc {
      ParseToolList(before + m + after);
    == { ParseAround(before, m, after); }
      Split(ReplaceCRLF(m), '\n');
    ==
      Split(Join(lines, '\n'), '\n');
    == { PlainLinesSplitJoin(lines); }
      lines;
    }
  }

  lemma PlainLinesSplitJoin(lines: seq<string>)
    requires PlainLines(lines)
    ensures Split(Join(lines, '\n'), '\n') == lines
  {
    forall k | 0 <= k < |lines| ensures '\n' !in lines[k] {
      assert NoSpace(lines[k]);
    }
    SplitJoin(lines, '\n');
  }

  /** The printed text of plain entries: no blank, white space only at line ends,
      and CRLF normalisation gives the LF text. */
  lemma ListingText(lines: seq<string>, crlf: bool)
    requires PlainLines(lines)
    ensures PrintedText(lines, Printed(lines, crlf))
  {
    LfText(lines);
    if crlf {
      CrlfText(lines);
      assert Printed(lines, crlf) == ToCRLF(Join(lines, '\n'));
    } else {
      assert Printed(lines, crlf) == Join(lines, '\n');
    }
  }

  lemma LfText(lines: seq<string>)
    requires PlainLines(lines)
    ensures '\r' !in Join(lines, '\n') && PrintedText(lines, Join(lines, '\n'))
  {
    JoinNoSpaceExceptSep(lines);
    JoinEnds(lines, '\n');
  }

  lemma CrlfText(lines: seq<string>)
    requires '\r' !in Join(lines, '\n') && PrintedText(lines, Join(lines, '\n'))
    ensures PrintedText(lines, ToCRLF(Join(lines, '\n')))
  {
    var j := Join(lines, '\n');
    ToCRLFChars(j);
    ToCRLFEnds(j);
    ReplaceCRLFOfToCRLF(j);
  }

  /** Spaces around a blank-free text with non-space ends are dropped before the lines are split. */
  lemma ParseAround(before: string, m: string, after: string)
    requires AllSpace(before) && AllSpace(after)
    requires ' ' !in m && m != [] && !IsSpace(m[0]) && !IsSpace(m[|m| - 1])
    ensures ParseToolList(before + m + after) == Split(ReplaceCRLF(m), '\n')
  {
    RemoveCharConcat(before, m, ' ');
    RemoveCharConcat(before + m, after, ' ');
    var a := RemoveChar(before, ' ');
    var b := RemoveChar(after, ' ');
    RemoveCharAllSpace(before, ' ');
    RemoveCharAllSpace(after, ' ');
    assert RemoveChar(before + m + after, ' ') == a + m + b;
    TrimSpaceOf(a, m, b);
  }

  /** The join of plain entries holds no white space but the separators. */
  lemma {:induction false} JoinNoSpaceExceptSep(lines: seq<string>)
    requires forall k :: 0 <= k < |lines| ==> NoSpace(lines[k])
    ensures forall i :: 0 <= i < |Join(lines, '\n')| ==> Join(lines, '\n')[i] == '\n' || !IsSpace(Join(lines, '\n')[i])
  {
    if |lines| > 1 {
      JoinNoSpaceExceptSep(lines[1..]);
      var rest := Join(lines[1..], '\n');
      var j := Join(lines, '\n');
      assert j == lines[0] + ['\n'] + rest;
      forall i | 0 <= i < |j| ensures j[i] == '\n' || !IsSpace(j[i]) {
        if i < |lines[0]| {
          assert j[i] == lines[0][i];
        } else if i > |lines[0]| {
          assert j[i] == rest[i - |lines[0]| - 1];
        }
      }
    }
  }

  /** The join starts with the first entry's first character and ends with the last entry's last one. */
  lemma JoinEnds(lines: seq<string>, sep: char)
    requires |lines| >= 1 && lines[0] != [] && lines[|lines| - 1] != []
    ensures Join(lines, sep) != []
    ensures Join(lines, sep)[0] == lines[0][0]
    ensures Join(lines, sep)[|Join(lines, sep)| - 1] == lines[|lines| - 1][|lines[|lines| - 1]| - 1]
  {
    JoinPrefix(lines, sep);
    JoinSuffix(lines, sep);
    var j := Join(lines, sep);
    var last := lines[|lines| - 1];
    assert j[|j| - 1] == j[|j| - |last|..][|last| - 1];
  }

  lemma {:induction false} JoinPrefix(lines: seq<string>, sep: char)
    requires |lines| >= 1
    ensures |lines[0]| <= |Join(lines, sep)| && Join(lines, sep)[..|lines[0]|] == lines[0]
  {
    if |lines| > 1 {
      assert Join(lines, sep) == lines[0] + [sep] + Join(lines[1..], sep);
    }
  }

  lemma {:induction false} JoinSuffix(lines: seq<string>, sep: char)
    requires |lines| >= 1
    ensures var last := lines[|lines| - 1];
            |last| <= |Join(lines, sep)| && Join(lines, sep)[|Join(lines, sep)| - |last|..] == last
  {
    if |lines| > 1 {
      JoinSuffix(lines[1..], sep);
      var rest := Join(lines[1..], sep);
      assert Join(lines, sep) == (lines[0] + [sep]) + rest;
      assert lines[1..][|lines[1..]| - 1] == lines[|lines| - 1];
    }
  }

  /** Writing CRLF line endings adds carriage returns and nothing else. */
  lemma {:induction false} ToCRLFChars(s: string)
    ensures forall i :: 0 <= i < |ToCRLF(s)| ==> ToCRLF(s)[i] == '\r' || ToCRLF(s)[i] in s
  {
    if s != [] {
      ToCRLFChars(s[1..]);
      var head := if s[0] == '\n' then "\r\n" else [s[0]];
      var t := ToCRLF(s[1..]);
      forall i | 0 <= i < |head + t| ensures (head + t)[i] == '\r' || (head + t)[i] in s {
        if i >= |head| {
          assert (head + t)[i] == t[i - |head|];
          assert t[i - |head|] == '\r' || t[i - |head|] in s[1..];
        }
      }
    }
  }

  /** CRLF line endings keep the first character and a last character that is not a line feed. */
  lemma ToCRLFEnds(s: string)
    requires s != [] && s[0] != '\n' && s[|s| - 1] != '\n'
    ensures ToCRLF(s) != [] && ToCRLF(s)[0] == s[0]
    ensures ToCRLF(s)[|ToCRLF(s)| - 1] == s[|s| - 1]
  {
    ToCRLFLast(s);
  }

  lemma {:induction false} ToCRLFLast(s: string)
    requires s != [] && s[|s| - 1] != '\n'
    ensures ToCRLF(s) != [] && ToCRLF(s)[|ToCRLF(s)| - 1] == s[|s| - 1]
  {
    if |s| > 1 {
      ToCRLFLast(s[1..]);
      var head := if s[0] == '\n' then "\r\n" else [s[0]];
      var t := ToCRLF(s[1..]);
      assert ToCRLF(s) == head + t;
      assert (head + t)[|head + t| - 1] == t[|t| - 1];
      assert s[1..][|s| - 2] == s[|s| - 1];
    }
  }

  lemma {:induction false} RemoveCharConcat(x: string, y: string, c: char)
    ensures RemoveChar(x + y, c) == RemoveChar(x, c) + RemoveChar(y, c)
  {
    if x != [] {
      RemoveCharConcat(x[1..], y, c);
      var h := if x[0] == c then [] else [x[0]];
      assert (x + y)[0] == x[0] && (x + y)[1..] == x[1..] + y;
      assert RemoveChar(x + y, c) == h + RemoveChar(x[1..] + y, c);
      assert RemoveChar(x, c) == h + RemoveChar(x[1..], c);
      ConcatAssoc(h, RemoveChar(x[1..], c), RemoveChar(y, c));
    } else {
      assert x + y == y;
    }
  }

  lemma RemoveCharAllSpace(s: string, c: char)
    requires AllSpace(s)
    ensures AllSpace(RemoveChar(s, c))
  {
    var r := RemoveChar(s, c);
    forall k | 0 <= k < |r| ensures IsSpace(r[k]) {
      assert r[k] in multiset(r);
      assert r[k] != c;
      assert r[k] in multiset(s);
    }
  }

  // ------------------------------------------------------- configurations

  /** Some context of the list has configuration x. */
  predicate HasConfigurationIn(contexts: seq<string>, x: string) {
    exists k :: 0 <= k < |contexts| && ConfigurationOf(contexts[k]) == Some(x)
  }

  /** A configuration is listed exactly when some context has it and it passes the filter. */
  lemma {:induction false} ConfigurationsMembers(contexts: seq<string>, filter: string, x: string)
    ensures x in Configurations(contexts, filter) <==> PassesFilter(x, filter) && HasConfigurationIn(contexts, x)
    decreases |contexts|
  {
    if contexts != [] {
      var init := contexts[..|contexts| - 1];
      ConfigurationsMembers(init, filter, x);
      HasConfigurationInSnoc(contexts, x);
    }
  }

  lemma HasConfigurationInSnoc(contexts: seq<string>, x: string)
    requires contexts != []
    ensures HasConfigurationIn(contexts, x) <==>
              HasConfigurationIn(contexts[..|contexts| - 1], x) || ConfigurationOf(contexts[|contexts| - 1]) == Some(x)
  {
    var n := |contexts| - 1;
    if HasConfigurationIn(contexts, x) {
      HasConfigurationInSplit(contexts, x);
    }
    if HasConfigurationIn(contexts[..n], x) {
      HasConfigurationInPrefix(contexts, x);
    }
    if ConfigurationOf(contexts[n]) == Some(x) {
      assert 0 <= n < |contexts| && ConfigurationOf(contexts[n]) == Some(x);
    }
  }

  lemma HasConfigurationInSplit(contexts: seq<string>, x: string)
    requires contexts != [] && HasConfigurationIn(contexts, x)
    ensures HasConfigurationIn(contexts[..|contexts| - 1], x) || ConfigurationOf(contexts[|contexts| - 1]) == Some(x)
  {
    var k :| 0 <= k < |contexts| && ConfigurationOf(contexts[k]) == Some(x);
    if k < |contexts| - 1 {
      assert contexts[..|contexts| - 1][k] == contexts[k];
    }
  }

  lemma HasConfigurationInPrefix(contexts: seq<string>, x: string)
    requires contexts != [] && HasConfigurationIn(contexts[..|contexts| - 1], x)
    ensures HasConfigurationIn(contexts, x)
  {
    var k :| 0 <= k < |contexts| - 1 && ConfigurationOf(contexts[..|contexts| - 1][k]) == Some(x);
    assert contexts[k] == contexts[..|contexts| - 1][k];
  }

  /** The configurations of a prefix of the catalog come first, in the same order:
      the list keeps the order of first occurrence. */
  lemma {:induction false} ConfigurationsPrefix(contexts: seq<string>, filter: string, i: nat)
    requires i <= |contexts|
    ensures Configurations(contexts[..i], filter) <= Configurations(contexts, filter)
    decreases |contexts|
  {
    if i < |contexts| {
      var init := contexts[..|contexts| - 1];
      ConfigurationsPrefix(init, filter, i);
      assert init[..i] == contexts[..i];
    } else {
      assert contexts[..i] == contexts;
    }
  }

  /** The context listing of listConfigurations is asked for without a filter:
      it is one csolution call (or none) whose flags hold no filter. */
  lemma ConfigurationsListingUnfiltered(p: Params, o: Oracle)
    ensures var q := p.(options := p.options.(filter := ""));
            (forall f :: f in Flags(q) ==> !f.Filter?) &&
            (ListConfigurationsStep(p, o).trace == [] ||
             ListConfigurationsStep(p, o).trace == [CsolutionRun(["list", "contexts"] + RenderAll(Flags(q)), true)])
  {
    var q := p.(options := p.options.(filter := ""));
    FlagsPresence(q);
  }

  /** Once the contexts are listed, the configurations are those of the catalog
      under the filter; finding none is an error only when a filter was given. */
  lemma ListConfigurationsOutcome(p: Params, o: Oracle)
    requires ListContextsStep(p.(options := p.options.(filter := "")), o, true, false).res.Ok?
    ensures var contexts := ListContextsStep(p.(options := p.options.(filter := "")), o, true, false).res.value;
            var configurations := Configurations(contexts, p.options.filter);
            ListConfigurationsStep(p, o).res ==
              if configurations == [] && p.options.filter != "" then Err(ConfigurationsListFailed) else Ok(configurations)
    ensures p.options.filter == "" ==> ListConfigurationsStep(p, o).res.Ok?
  {
  }

  // ------------------------------------------------------------ selection

  /** A context written in canonical form validates to itself exactly when the catalog lists it. */
  lemma ValidateCanonical(allContexts: seq<string>, context: string)
    requires WellFormedContext(context)
    ensures ValidateContext(allContexts, context) ==
              if context in allContexts then Ok(context) else Err(ContextNotFound)
  {
    ParseFormat(context);
  }

  /** Validating the formatted context of an item validates the item: the same canonical text results. */
  lemma ValidateFormatted(allContexts: seq<string>, item: ContextItem)
    requires WellFormedItem(item)
    ensures ValidateContext(allContexts, FormatContext(item)).Ok? <==> FormatContext(item) in allContexts
    ensures ValidateContext(allContexts, FormatContext(item)).Ok? ==>
              ValidateContext(allContexts, FormatContext(item)).value == FormatContext(item)
  {
    FormatParse(item);
  }

  // ----------------------------------------------------- descriptor lookup

  /** Only the first matching entry counts: later entries never change the lookup. */
  lemma {:induction false} CprjFileIgnoresLater(idxFile: string, entries: seq<string>, more: seq<string>, context: string)
    requires FirstMatch(entries, context).Some?
    ensures CprjFile(idxFile, entries + more, context) == CprjFile(idxFile, entries, context)
  {
    var k := FirstMatch(entries, context).value;
    var all := entries + more;
    assert all[k] == entries[k];
    assert forall j :: 0 <= j < k ==> all[j] == entries[j];
    FirstMatchAt(all, context, k);
  }

  lemma FirstMatchAt(entries: seq<string>, context: string, k: nat)
    requires k < |entries| && Contains(entries[k], context)
    requires forall j :: 0 <= j < k ==> !Contains(entries[j], context)
    ensures FirstMatch(entries, context) == Some(k)
  {
  }

  /** The descriptor lies in the matching entry's directory, taken relative to the
      index document's directory, and is named after the context. */
  lemma CprjFileLocation(idxFile: string, entries: seq<string>, context: string)
    requires CprjFile(idxFile, entries, context).Ok? && '/' !in context
    ensures var path := CprjFile(idxFile, entries, context).value;
            var k := FirstMatch(entries, context).value;
            Dir(path) == Dir(idxFile) + "/" + Dir(entries[k]) &&
            Base(path) == context + ".cprj" &&
            Contains(entries[k], context)
  {
    var k := FirstMatch(entries, context).value;
    var d := Dir(idxFile) + "/" + Dir(entries[k]);
    assert CprjFile(idxFile, entries, context).value == d + "/" + (context + ".cprj");
    DirBaseOfChild(d, context + ".cprj");
  }

  /** The index document lies in the output directory when one is given, else
      next to the solution file, and is named after the solution. */
  lemma IndexFileLocation(p: Params, name: string)
    ensures IndexFile(p, name) ==
              (if p.options.output != "" then p.options.output else Dir(p.inputFile)) + "/" + (name + ".cbuild-idx.yml")
  {
    DirNonEmpty(p.inputFile);
    var outputDir := if p.options.output != "" then p.options.output else Dir(p.inputFile);
    JoinPathCons(name + ".cbuild-idx.yml", []);
    JoinPathCons(outputDir, [name + ".cbuild-idx.yml"]);
  }

  // ------------------------------------------------- derived directories

  /** The directory formulatePath gives: `dir(cprj)/<dir>/project[/buildType]/target`. */
  function Layout(cprjFile: string, dir: string, item: ContextItem): string {
    Dir(cprjFile) + "/" + (dir + "/" + (item.projectName + "/" + TypesPart(item)))
  }

  /** `[buildType/]target`: the build type is left out when it is empty. */
  function TypesPart(item: ContextItem): string {
    if item.buildType != "" then item.buildType + "/" + item.targetType else item.targetType
  }

  /** For a context with a project and a target type, the joined path has the layout. */
  lemma FormulatePathLayout(cprjFile: string, dir: string, item: ContextItem)
    requires dir != "" && item.projectName != "" && item.targetType != ""
    ensures JoinPath(FormulatePath(cprjFile, dir, item)) == Layout(cprjFile, dir, item)
  {
    var d, pn, t := Dir(cprjFile), item.projectName, item.targetType;
    var tail := if item.buildType != "" then [item.buildType] + [t] else [t];
    assert JoinPath([t]) == t by {
      JoinPathCons(t, []);
      assert [t] + [] == [t];
    }
    if item.buildType != "" {
      assert JoinPath([item.buildType] + [t]) == item.buildType + "/" + t by {
        JoinPathBefore(item.buildType, [t]);
      }
    }
    assert JoinPath(tail) == TypesPart(item);
    assert JoinPath([pn] + tail) == pn + "/" + TypesPart(item) by {
      JoinPathBefore(pn, tail);
    }
    assert JoinPath([dir] + ([pn] + tail)) == dir + "/" + (pn + "/" + TypesPart(item)) by {
      JoinPathBefore(dir, [pn] + tail);
    }
    assert JoinPath([d] + ([dir] + ([pn] + tail))) == Layout(cprjFile, dir, item) by {
      DirNonEmpty(cprjFile);
      JoinPathBefore(d, [dir] + ([pn] + tail));
    }
    assert FormulatePath(cprjFile, dir, item) == [d] + ([dir] + ([pn] + tail));
  }

  /** A non-empty element joined before a list that starts with a non-empty element
      is followed by a separator. */
  lemma JoinPathBefore(first: string, rest: seq<string>)
    requires first != "" && rest != [] && rest[0] != ""
    ensures JoinPath([first] + rest) == first + "/" + JoinPath(rest)
  {
    JoinPathCons(first, rest);
    NonEmptyCons(rest[0], rest[1..]);
    assert rest == [rest[0]] + rest[1..];
  }

  /** Joining a non-empty first element: it is followed by a separator unless nothing else remains. */
  lemma JoinPathCons(first: string, rest: seq<string>)
    requires first != ""
    ensures JoinPath([first] + rest) == if NonEmpty(rest) == [] then first else first + "/" + JoinPath(rest)
  {
    assert ([first] + rest)[1..] == rest;
    var tail := NonEmpty(rest);
    assert NonEmpty([first] + rest) == [first] + tail;
    assert ([first] + tail)[1..] == tail;
  }

  lemma DirNonEmpty(p: string)
    ensures Dir(p) != ""
  {
  }

  /** The per-project options of a context in canonical form: its output and
      intermediate directories follow the layout under `out` and `tmp`, and no
      other option changes. */
  lemma ProjectOptionsOfContext(o: Options, cprjFile: string, item: ContextItem)
    requires WellFormedItem(item)
    ensures var po := ProjectOptions(o, cprjFile, FormatContext(item));
            po.outDir == Layout(cprjFile, "out", item) &&
            po.intDir == Layout(cprjFile, "tmp", item) &&
            po.(outDir := o.outDir, intDir := o.intDir) == o
  {
    FormatParse(item);
    FormulatePathLayout(cprjFile, "out", item);
    FormulatePathLayout(cprjFile, "tmp", item);
  }

  /** A context that does not parse leaves only the descriptor directory and the
      fixed segment: its output and intermediate directories are `dir(cprj)/out` and `dir(cprj)/tmp`. */
  lemma ProjectOptionsOfUnparsed(o: Options, cprjFile: string, context: string)
    requires ParseContext(context).Err?
    ensures ProjectOptions(o, cprjFile, context).outDir == Dir(cprjFile) + "/out"
    ensures ProjectOptions(o, cprjFile, context).intDir == Dir(cprjFile) + "/tmp"
  {
    EmptyItemPath(cprjFile, "out");
    EmptyItemPath(cprjFile, "tmp");
  }

  /** With all tokens empty, only the descriptor directory and the fixed segment remain. */
  lemma EmptyItemPath(cprjFile: string, dir: string)
    requires dir != ""
    ensures JoinPath(FormulatePath(cprjFile, dir, ContextItem("", "", ""))) == Dir(cprjFile) + "/" + dir
  {
    DirNonEmpty(cprjFile);
    assert NonEmpty(["", ""]) == [] by {
      assert ["", ""][1..] == [""];
      assert [""][1..] == [];
    }
    JoinPathCons(dir, ["", ""]);
    JoinPathCons(Dir(cprjFile), [dir, "", ""]);
    assert [dir, "", ""] == [dir] + ["", ""];
    assert FormulatePath(cprjFile, dir, ContextItem("", "", "")) == [Dir(cprjFile)] + [dir, "", ""];
  }

  // ------------------------------------------------------- context loop

  /** The steps of processing each context on its own, in order. */
  function StepsOf(p: Params, o: Oracle, contexts: seq<string>): (r: seq<Step<()>>)
    ensures |r| == |contexts|
    ensures forall k :: 0 <= k < |contexts| ==> r[k] == ProcessContextStep(p, o, contexts[k])
  {
    if contexts == [] then [] else [ProcessContextStep(p, o, contexts[0])] + StepsOf(p, o, contexts[1..])
  }

  /** The calls of all the steps, one after the other. */
  function Traces(steps: seq<Step<()>>): seq<Call> {
    if steps == [] then [] else steps[0].trace + Traces(steps[1..])
  }

  /** The first step that fails. */
  function FirstFailure(steps: seq<Step<()>>): (r: Option<nat>)
    ensures r.None? <==> forall k :: 0 <= k < |steps| ==> steps[k].res.Ok?
    ensures r.Some? ==> r.value < |steps| && steps[r.value].res.Err? &&
                        forall k :: 0 <= k < r.value ==> steps[k].res.Ok?
  {
    if steps == [] then None
    else if steps[0].res.Err? then Some(0)
    else match FirstFailure(steps[1..])
      case None => None
      case Some(k) => Some(k + 1)
  }

  /** Running steps in order until one fails. */
  function RunAll(steps: seq<Step<()>>): Step<()> {
    if steps == [] then Step(Ok(()), [])
    else if steps[0].res.Err? then steps[0]
    else Prepend(steps[0].trace, RunAll(steps[1..]))
  }

  /** Build's context loop runs the per-context steps in order until one fails. */
  lemma {:induction false} ProcessAllRuns(p: Params, o: Oracle, contexts: seq<string>)
    ensures ProcessAll(p, o, contexts) == RunAll(StepsOf(p, o, contexts))
  {
    if contexts != [] {
      ProcessAllRuns(p, o, contexts[1..]);
      assert StepsOf(p, o, contexts)[1..] == StepsOf(p, o, contexts[1..]);
    }
  }

  /** Running until the first failure: every step up to and including the first
      that fails makes its calls, and its error is the result; when none fails,
      all steps run and the run succeeds. */
  lemma {:induction false} RunAllFailFast(steps: seq<Step<()>>)
    ensures FirstFailure(steps).None? ==> RunAll(steps) == Step(Ok(()), Traces(steps))
    ensures FirstFailure(steps).Some? ==>
              var k := FirstFailure(steps).value;
              RunAll(steps) == Step(steps[k].res, Traces(steps[..k + 1]))
  {
    if steps != [] {
      if steps[0].res.Err? {
        assert steps[..1][1..] == [];
      } else {
        RunAllFailFast(steps[1..]);
        match FirstFailure(steps[1..])
        case None =>
        case Some(k) =>
          assert steps[..k + 2][1..] == steps[1..][..k + 1];
      }
    }
  }

  /** Build's context loop is fail-fast: the contexts are processed in order up to
      and including the first that fails, whose error is the result; when none
      fails, every context is processed and the loop succeeds. */
  lemma ProcessAllFailFast(p: Params, o: Oracle, contexts: seq<string>)
    ensures var steps := StepsOf(p, o, contexts);
            FirstFailure(steps).None? ==> ProcessAll(p, o, contexts) == Step(Ok(()), Traces(steps))
    ensures var steps := StepsOf(p, o, contexts);
            FirstFailure(steps).Some? ==>
              var k := FirstFailure(steps).value;
              ProcessAll(p, o, contexts) == Step(steps[k].res, Traces(steps[..k + 1]))
  {
    ProcessAllRuns(p, o, contexts);
    RunAllFailFast(StepsOf(p, o, contexts));
  }

  // ----------------------------------------------------------- pack loop

  /** One `pack add` call per identifier, in order. */
  function AddCalls(ids: seq<string>): (r: seq<Call>)
    ensures |r| == |ids|
    ensures forall k :: 0 <= k < |ids| ==> r[k] == CpackgetRun(PackAddArgs(ids[k]))
  {
    if ids == [] then [] else [CpackgetRun(PackAddArgs(ids[0]))] + AddCalls(ids[1..])
  }

  /** The installation of each identifier on its own: one `pack add` call, which fails when cpackget refuses. */
  function AddSteps(o: Oracle, ids: seq<string>): (r: seq<Step<()>>)
    ensures |r| == |ids|
    ensures forall k :: 0 <= k < |ids| ==> r[k].trace == [CpackgetRun(PackAddArgs(ids[k]))]
    ensures forall k :: 0 <= k < |ids| ==>
              r[k].res == if o.cpackget(PackAddArgs(ids[k])) then Ok(()) else Err(ToolFailed)
  {
    if ids == [] then []
    else
      var args := PackAddArgs(ids[0]);
      [Step(if o.cpackget(args) then Ok(()) else Err(ToolFailed), [CpackgetRun(args)])] + AddSteps(o, ids[1..])
  }

  lemma {:induction false} AddStepsTraces(o: Oracle, ids: seq<string>)
    ensures Traces(AddSteps(o, ids)) == AddCalls(ids)
  {
    if ids != [] {
      AddStepsTraces(o, ids[1..]);
      assert AddSteps(o, ids)[1..] == AddSteps(o, ids[1..]);
    }
  }

  lemma AddStepsPrefix(o: Oracle, ids: seq<string>, n: nat)
    requires n <= |ids|
    ensures AddSteps(o, ids)[..n] == AddSteps(o, ids[..n])
  {
  }

  /** With cpackget present, the install loop runs one installation per listed pack until one fails. */
  lemma {:induction false} InstallEachRuns(o: Oracle, lines: seq<string>)
    requires o.cpackgetFound
    ensures InstallEach(o, lines) == RunAll(AddSteps(o, PackIds(lines)))
  {
    if lines != [] {
      InstallEachRuns(o, lines[1..]);
      var pack := RemoveChar(lines[0], ' ');
      var rest := PackIds(lines[1..]);
      if pack == [] {
        assert PackIds(lines) == rest;
      } else {
        assert PackIds(lines) == [pack] + rest;
        assert AddSteps(o, [pack] + rest)[1..] == AddSteps(o, rest);
      }
    }
  }

  /** Nothing is installed when no pack is listed; without cpackget a listed pack
      is an error before any call. */
  lemma {:induction false} InstallEachWithoutTool(o: Oracle, lines: seq<string>)
    requires !o.cpackgetFound
    ensures InstallEach(o, lines) == if PackIds(lines) == [] then Step(Ok(()), []) else Step(Err(ToolNotFound), [])
  {
    if lines != [] {
      InstallEachWithoutTool(o, lines[1..]);
    }
  }

  /** With cpackget present the listed packs are installed in order, stopping at
      the first installation that fails. */
  lemma InstallEachInOrder(o: Oracle, lines: seq<string>)
    requires o.cpackgetFound
    ensures var ids := PackIds(lines);
            FirstFailure(AddSteps(o, ids)).None? ==> InstallEach(o, lines) == Step(Ok(()), AddCalls(ids))
    ensures var ids := PackIds(lines);
            var first := FirstFailure(AddSteps(o, ids));
            first.Some? ==>
              !o.cpackget(PackAddArgs(ids[first.value])) &&
              InstallEach(o, lines) == Step(Err(ToolFailed), AddCalls(ids[..first.value + 1]))
  {
    var ids := PackIds(lines);
    var steps := AddSteps(o, ids);
    InstallEachRuns(o, lines);
    RunAllFailFast(steps);
    AddStepsTraces(o, ids);
    match FirstFailure(steps)
    case None =>
    case Some(k) =>
      AddStepsPrefix(o, ids, k + 1);
      AddStepsTraces(o, ids[..k + 1]);
  }

  /** installMissingPacks lists the missing packs once with `list packs -m`: a bad
      option, a missing csolution or a failed listing ends it with no installation;
      otherwise the install loop runs over the lines of the listing. */
  lemma InstallPacksOutcome(p: Params, o: Oracle)
    ensures Args(p, ["list", "packs"]).Err? ==>
              InstallPacksStep(p, o) == Step(Err(Args(p, ["list", "packs"]).error), [])
    ensures Args(p, ["list", "packs"]).Ok? && !o.csolutionFound ==>
              InstallPacksStep(p, o) == Step(Err(ToolNotFound), [])
    ensures Args(p, ["list", "packs"]).Ok? && o.csolutionFound ==>
              var args := Args(p, ["list", "packs"]).value + ["-m"];
              var call := CsolutionRun(args, false);
              match o.csolution(args)
              case None => InstallPacksStep(p, o) == Step(Err(ToolFailed), [call])
              case Some(output) => InstallPacksStep(p, o) == Prepend([call], InstallEach(o, MissingPackLines(output)))
  {
  }

  /** Pack identifiers as the listing prints them: not blank, no white space. */
  predicate PlainIds(ids: seq<string>) {
    forall k :: 0 <= k < |ids| ==> ids[k] != [] && NoSpace(ids[k])
  }

  /** Lines that are already plain identifiers are installed as they are, in order. */
  lemma {:induction false} PackIdsPlain(ids: seq<string>)
    requires PlainIds(ids)
    ensures PackIds(ids) == ids
  {
    if ids != [] {
      PackIdsPlain(ids[1..]);
      assert ' ' !in ids[0] by {
        assert NoSpace(ids[0]);
      }
      PackIdsCons(ids[0], ids[1..]);
      assert ids == [ids[0]] + ids[1..];
    }
  }

  /** The missing-pack listing, printed one identifier per line with LF or CRLF
      endings and whatever white space surrounds the text, yields exactly the
      printed identifiers, in order; an empty listing yields none. */
  lemma MissingPacksRoundTrip(ids: seq<string>, before: string, after: string, crlf: bool)
    requires PlainIds(ids) && AllSpace(before) && AllSpace(after)
    ensures PackIds(MissingPackLines(before + Printed(ids, crlf) + after)) == ids
  {
    if ids == [] {
      assert Printed(ids, crlf) == [];
      assert before + Printed(ids, crlf) + after == before + after;
      AllSpaceConcat(before, after);
      assert MissingPackLines(before + after) == [[]];
      assert PackIds([[]]) == [];
    } else {
      assert PlainLines(ids);
      ListingText(ids, crlf);
      MissingPrinted(ids, before, Printed(ids, crlf), after);
    }
  }

  lemma MissingPrinted(ids: seq<string>, before: string, m: string, after: string)
    requires PlainIds(ids) && PlainLines(ids) && AllSpace(before) && AllSpace(after) && PrintedText(ids, m)
    ensures PackIds(MissingPackLines(before + m + after)) == ids
  {
    calc {
      PackIds(MissingPackLines(before + m + after));
    == { TrimSpaceOf(before, m, after); }
      PackIds(Split(ReplaceCRLF(m), '\n'));
    ==
      PackIds(Split(Join(ids, '\n'), '\n'));
    == { PlainLinesSplitJoin(ids); }
      PackIds(ids);
    == { PackIdsPlain(ids); }
      ids;
    }
  }

  /** With csolution and cpackget present, a listing of plain identifiers installs
      exactly those identifiers, in the listed order, until one installation fails. */
  lemma InstallPacksOfListing(p: Params, o: Oracle, ids: seq<string>, before: string, after: string, crlf: bool)
    requires Args(p, ["list", "packs"]).Ok? && o.csolutionFound && o.cpackgetFound
    requires PlainIds(ids) && AllSpace(before) && AllSpace(after)
    requires o.csolution(Args(p, ["list", "packs"]).value + ["-m"]) ==
               Some(before + Printed(ids, crlf) + after)
    ensures InstallPacksStep(p, o) ==
              Prepend([CsolutionRun(Args(p, ["list", "packs"]).value + ["-m"], false)], RunAll(AddSteps(o, ids)))
  {
    var output := before + Printed(ids, crlf) + after;
    InstallPacksOutcome(p, o);
    MissingPacksRoundTrip(ids, before, after, crlf);
    InstallEachRuns(o, MissingPackLines(output));
  }

  // ---------------------------------------------------------------- build

  /** The phase of a build a call belongs to: listing the contexts (0), installing
      packs (1), converting the solution (2), processing the contexts (3). */
  function Phase(c: Call): nat {
    match c
    case CsolutionRun(args, _) =>
      if |args| >= 2 && args[0] == "list" && args[1] == "packs" then 1
      else if |args| >= 1 && args[0] == "convert" then 2
      else 0
    case CpackgetRun(_) => 1
    case IndexRead(_) => 3
    case ProjectBuild(_, _) => 3
  }

  predicate InPhase(t: seq<Call>, n: nat) {
    forall k :: 0 <= k < |t| ==> Phase(t[k]) == n
  }

  predicate PhasesOrdered(t: seq<Call>) {
    forall i, j :: 0 <= i < j < |t| ==> Phase(t[i]) <= Phase(t[j])
  }

  /** A call of the given phase occurs. */
  predicate HasPhase(t: seq<Call>, n: nat) {
    exists k :: 0 <= k < |t| && Phase(t[k]) == n
  }

  lemma ListContextsPhase(p: Params, o: Oracle, quiet: bool, ymlOrder: bool)
    ensures InPhase(ListContextsStep(p, o, quiet, ymlOrder).trace, 0)
    ensures |ListContextsStep(p, o, quiet, ymlOrder).trace| <= 1
  {
    var command := ["list", "contexts"];
    var a := Args(p, command);
    if a.Ok? {
      assert a.value[..2] == command;
      assert a.value[0] == "list" && a.value[1] == "contexts";
    }
  }

  lemma {:induction false} InstallEachPhase(o: Oracle, lines: seq<string>)
    ensures InPhase(InstallEach(o, lines).trace, 1)
  {
    if lines != [] {
      InstallEachPhase(o, lines[1..]);
    }
  }

  lemma InstallPacksPhase(p: Params, o: Oracle)
    ensures InPhase(InstallPacksStep(p, o).trace, 1)
  {
    var s := InstallPacksStep(p, o);
    var a := Args(p, ["list", "packs"]);
    if a.Ok? {
      var call := CsolutionRun(a.value + ["-m"], false);
      var listing := CsolutionStep(o, a.value + ["-m"], false);
      PackListingPhase(a.value);
      SingleCallPhase(call, 1);
      if listing.res.Ok? {
        assert listing.trace == [call];
        var installs := InstallEach(o, MissingPackLines(listing.res.value));
        InstallEachPhase(o, MissingPackLines(listing.res.value));
        assert s.trace == [call] + installs.trace;
        InPhaseConcat([call], installs.trace, 1);
      } else {
        assert s.trace == listing.trace;
      }
    } else {
      assert s.trace == [];
    }
  }

  lemma SingleCallPhase(c: Call, n: nat)
    requires Phase(c) == n
    ensures InPhase([], n) && InPhase([c], n)
  {
  }

  lemma InPhaseConcat(a: seq<Call>, b: seq<Call>, n: nat)
    requires InPhase(a, n) && InPhase(b, n)
    ensures InPhase(a + b, n)
  {
    forall k | 0 <= k < |a + b| ensures Phase((a + b)[k]) == n {
      if k >= |a| {
        assert (a + b)[k] == b[k - |a|];
      }
    }
  }

  lemma PackListingPhase(args: seq<string>)
    requires |args| >= 2 && args[..2] == ["list", "packs"]
    ensures Phase(CsolutionRun(args + ["-m"], false)) == 1
  {
    assert args[0] == "list" && args[1] == "packs";
  }

  /** processContext stops before any call when the solution file name is not `name.ext1.ext2`. */
  lemma ProcessContextBadName(p: Params, o: Oracle, context: string)
    requires SolutionName(p.inputFile).Err?
    ensures ProcessContextStep(p, o, context) == Step(Err(InvalidFileName), [])
  {
  }

  /** Otherwise processContext reads the index of the solution first, and makes a
      second (and last) call exactly when the descriptor is found. */
  lemma ProcessContextReadsIndex(p: Params, o: Oracle, context: string, name: string)
    requires SolutionName(p.inputFile) == Ok(name)
    ensures var t := ProcessContextStep(p, o, context).trace;
            1 <= |t| <= 2 && t[0] == IndexRead(IndexFile(p, name)) &&
            (|t| == 2 <==> CprjFileStep(o, IndexFile(p, name), context).res.Ok?)
  {
    var lookup := CprjFileStep(o, IndexFile(p, name), context);
    var t := ProcessContextStep(p, o, context).trace;
    assert lookup.trace == [IndexRead(IndexFile(p, name))];
    if lookup.res.Ok? {
      var cprjFile := lookup.res.value;
      assert t == lookup.trace + [ProjectBuild(cprjFile, ProjectOptions(p.options, cprjFile, context))];
    } else {
      assert t == lookup.trace;
    }
  }

  /** The second call builds the found descriptor with the derived options, and
      processing ends with that build's own outcome. */
  lemma ProcessContextBuilds(p: Params, o: Oracle, context: string, name: string, cprjFile: string)
    requires SolutionName(p.inputFile) == Ok(name)
    requires CprjFileStep(o, IndexFile(p, name), context).res == Ok(cprjFile)
    ensures var s := ProcessContextStep(p, o, context);
            var options := ProjectOptions(p.options, cprjFile, context);
            s.trace == [IndexRead(IndexFile(p, name)), ProjectBuild(cprjFile, options)] &&
            s.res == o.project(cprjFile, options)
  {
    var lookup := CprjFileStep(o, IndexFile(p, name), context);
    var options := ProjectOptions(p.options, cprjFile, context);
    var call := ProjectBuild(cprjFile, options);
    assert lookup.trace == [IndexRead(IndexFile(p, name))];
    assert ProcessContextStep(p, o, context) == Step(o.project(cprjFile, options), lookup.trace + [call]);
  }

  lemma ProcessContextPhase(p: Params, o: Oracle, context: string)
    ensures InPhase(ProcessContextStep(p, o, context).trace, 3)
  {
    if SolutionName(p.inputFile).Err? {
      ProcessContextBadName(p, o, context);
    } else {
      var name := SolutionName(p.inputFile).value;
      ProcessContextReadsIndex(p, o, context, name);
      var lookup := CprjFileStep(o, IndexFile(p, name), context);
      if lookup.res.Ok? {
        ProcessContextBuilds(p, o, context, name, lookup.res.value);
      }
      BuildTracePhase(ProcessContextStep(p, o, context).trace);
    }
  }

  lemma BuildTracePhase(t: seq<Call>)
    requires |t| <= 2
    requires |t| >= 1 ==> t[0].IndexRead?
    requires |t| == 2 ==> t[1].ProjectBuild?
    ensures InPhase(t, 3)
  {
  }

  lemma {:induction false} ProcessAllPhase(p: Params, o: Oracle, contexts: seq<string>)
    ensures InPhase(ProcessAll(p, o, contexts).trace, 3)
  {
    if contexts != [] {
      ProcessContextPhase(p, o, contexts[0]);
      ProcessAllPhase(p, o, contexts[1..]);
    }
  }

  /** The calls after the selection: pack installation (only when asked for), at most
      one conversion, then the processing of the contexts, which needs the conversion. */
  lemma ConvertAndProcessParts(b: Params, o: Oracle, contexts: seq<string>)
    returns (packs: seq<Call>, convert: seq<Call>, process: seq<Call>)
    ensures ConvertAndProcess(b, o, contexts).trace == packs + convert + process
    ensures InPhase(packs, 1) && InPhase(convert, 2) && InPhase(process, 3)
    ensures |convert| <= 1
    ensures !b.options.packs ==> packs == []
    ensures (ConvertAndProcess(b, o, contexts).res.Ok? || process != []) ==> |convert| == 1
    ensures process != [] ==>
              Args(b, ["convert"]).Ok? && (!b.options.packs || InstallPacksStep(b, o).res.Ok?) &&
              CsolutionStep(o, Args(b, ["convert"]).value, false).res.Ok? &&
              process == ProcessAll(b, o, contexts).trace
  {
    var step := ConvertAndProcess(b, o, contexts);
    var a := Args(b, ["convert"]);
    if a.Err? {
      return [], [], [];
    }
    assert a.value[..1] == ["convert"];
    var ps := if b.options.packs then InstallPacksStep(b, o) else Step(Ok(()), []);
    if b.options.packs {
      InstallPacksPhase(b, o);
    }
    packs := ps.trace;
    if ps.res.Err? {
      return packs, [], [];
    }
    convert := CsolutionStep(o, a.value, false).trace;
    if CsolutionStep(o, a.value, false).res.Err? {
      return packs, convert, [];
    }
    process := ProcessAll(b, o, contexts).trace;
    ProcessAllPhase(b, o, contexts);
  }

  /** A failed pack installation ends the build with its error: nothing is converted
      and no context is processed. */
  lemma PacksFailureStops(b: Params, o: Oracle, contexts: seq<string>)
    requires !Conflict(b.options) && b.options.packs && InstallPacksStep(b, o).res.Err?
    ensures ConvertAndProcess(b, o, contexts) == InstallPacksStep(b, o)
  {
  }

  /** A failed conversion ends the build with its error after the pack calls and the
      conversion call: no context is processed. */
  lemma ConvertFailureStops(b: Params, o: Oracle, contexts: seq<string>)
    requires !Conflict(b.options)
    requires !b.options.packs || InstallPacksStep(b, o).res.Ok?
    requires CsolutionStep(o, Args(b, ["convert"]).value, false).res.Err?
    ensures var packs := if b.options.packs then InstallPacksStep(b, o).trace else [];
            var convert := CsolutionStep(o, Args(b, ["convert"]).value, false);
            ConvertAndProcess(b, o, contexts) == Step(Err(convert.res.error), packs + convert.trace)
  {
  }

  /** After the packs and a successful conversion, the build is the context loop:
      its result is the loop's result and its calls follow the conversion. */
  lemma ConvertThenProcess(b: Params, o: Oracle, contexts: seq<string>)
    requires !Conflict(b.options)
    requires !b.options.packs || InstallPacksStep(b, o).res.Ok?
    requires CsolutionStep(o, Args(b, ["convert"]).value, false).res.Ok?
    ensures var packs := if b.options.packs then InstallPacksStep(b, o).trace else [];
            var args := Args(b, ["convert"]).value;
            ConvertAndProcess(b, o, contexts) ==
              Step(ProcessAll(b, o, contexts).res, packs + [CsolutionRun(args, false)] + ProcessAll(b, o, contexts).trace)
  {
  }

  /** Once the contexts are listed and selected, the build goes on with the selected
      contexts, under the selected context option; a listing or selection that fails
      ends it after the listing call. */
  lemma BuildSelected(p: Params, o: Oracle)
    ensures var listing := ListContextsStep(p, o, true, true);
            listing.res.Err? ==> BuildStep(p, o) == Step(Err(listing.res.error), listing.trace)
    ensures var listing := ListContextsStep(p, o, true, true);
            listing.res.Ok? && Selection(p.options, listing.res.value).Ok? ==>
              var selected := Selection(p.options, listing.res.value).value;
              var b := p.(options := p.options.(context := selected.context));
              BuildStep(p, o) == Prepend(listing.trace, ConvertAndProcess(b, o, selected.contexts))
  {
  }

  /** The phase a position of a four-part trace falls in, given where parts 1, 2
      and 3 start. */
  function Level(k: int, n0: int, n1: int, n2: int): nat {
    if k < n0 then 0 else if k < n1 then 1 else if k < n2 then 2 else 3
  }

  lemma PartAt(list: seq<Call>, packs: seq<Call>, convert: seq<Call>, process: seq<Call>, k: int)
    requires InPhase(list, 0) && InPhase(packs, 1) && InPhase(convert, 2) && InPhase(process, 3)
    requires 0 <= k < |list + (packs + (convert + process))|
    ensures Phase((list + (packs + (convert + process)))[k]) ==
            Level(k, |list|, |list| + |packs|, |list| + |packs| + |convert|)
  {
    var t := list + (packs + (convert + process));
    var n0, n1, n2 := |list|, |list| + |packs|, |list| + |packs| + |convert|;
    if k < n0 {
      assert t[k] == list[k];
    } else if k < n1 {
      assert t[k] == packs[k - n0];
    } else if k < n2 {
      assert t[k] == convert[k - n1];
    } else {
      assert t[k] == process[k - n2];
    }
  }

  /** Four runs of calls of increasing phase form an ordered trace. */
  lemma PhasesOfParts(list: seq<Call>, packs: seq<Call>, convert: seq<Call>, process: seq<Call>)
    requires InPhase(list, 0) && InPhase(packs, 1) && InPhase(convert, 2) && InPhase(process, 3)
    ensures var t := list + (packs + (convert + process));
            PhasesOrdered(t) &&
            (HasPhase(t, 1) <==> packs != []) &&
            (HasPhase(t, 2) <==> convert != []) &&
            (HasPhase(t, 3) <==> process != []) &&
            (forall i, j :: 0 <= i < |t| && 0 <= j < |t| && Phase(t[i]) == 2 && Phase(t[j]) == 2 ==> i - j < |convert|)
  {
    var t := list + (packs + (convert + process));
    var n0, n1, n2 := |list|, |list| + |packs|, |list| + |packs| + |convert|;
    forall k | 0 <= k < |t| ensures Phase(t[k]) == Level(k, n0, n1, n2) {
      PartAt(list, packs, convert, process, k);
    }
    if packs != [] {
      assert Phase(t[n0]) == 1;
    }
    if convert != [] {
      assert Phase(t[n1]) == 2;
    }
    if process != [] {
      assert Phase(t[n2]) == 3;
    }
  }

  /** A build refuses '--context' together with '--configuration' before any call. */
  lemma BuildConflict(p: Params, o: Oracle)
    requires Conflict(p.options)
    ensures BuildStep(p, o) == Step(Err(OptionsConflict), [])
  {
  }

  /** The calls of a build come phase by phase: the context listing, then pack
      installation (only with '--packs'), then at most one conversion, then the
      contexts. A build that succeeds, or that processes any context, has converted
      the solution exactly once before. */
  lemma BuildPhases(p: Params, o: Oracle)
    ensures var t := BuildStep(p, o).trace;
            PhasesOrdered(t) &&
            (forall i, j :: 0 <= i < |t| && 0 <= j < |t| && Phase(t[i]) == 2 && Phase(t[j]) == 2 ==> i == j) &&
            (BuildStep(p, o).res.Ok? || HasPhase(t, 3) ==> HasPhase(t, 2)) &&
            (!p.options.packs ==> !HasPhase(t, 1))
  {
    var listing := ListContextsStep(p, o, true, true);
    ListContextsPhase(p, o, true, true);
    var packs, convert, process := [], [], [];
    if listing.res.Ok? {
      var selected := Selection(p.options, listing.res.value);
      if selected.Ok? {
        var b := p.(options := p.options.(context := selected.value.context));
        packs, convert, process := ConvertAndProcessParts(b, o, selected.value.contexts);
      }
    }
    ConcatAssoc(packs, convert, process);
    assert BuildStep(p, o).trace == listing.trace + (packs + (convert + process));
    PhasesOfParts(listing.trace, packs, convert, process);
  }

  /** A selection that fails ends the build after the context listing: nothing is
      converted, installed or processed. */
  lemma BuildSelectionFailure(p: Params, o: Oracle)
    requires ListContextsStep(p, o, true, true).res.Ok?
    requires Selection(p.options, ListContextsStep(p, o, true, true).res.value).Err?
    ensures BuildStep(p, o).res.Err?
    ensures BuildStep(p, o).res.error in {InvalidContext, ContextNotFound, ConfigurationNotFound}
    ensures BuildStep(p, o).trace == ListContextsStep(p, o, true, true).trace
    ensures InPhase(BuildStep(p, o).trace, 0) && |BuildStep(p, o).trace| == 1
  {
    ListContextsPhase(p, o, true, true);
  }
}

=== FILE: strings.dfy ===
/** The string operations of Go's `strings` package that the builder relies on:
    TrimSpace, ReplaceAll (for one character and for "\r\n"), Split, Index,
    Contains, plus the append-if-absent helper. */
module Strings {

  /** Go's unicode.IsSpace: the ASCII and Latin-1 spaces and the Unicode
      White_Space characters above them. */
  predicate IsSpace(c: char) {
    var n := c as int;
    n == 0x20 || (0x09 <= n <= 0x0D) || n == 0x85 || n == 0xA0 || n == 0x1680 ||
    (0x2000 <= n <= 0x200A) || n == 0x2028 || n == 0x2029 || n == 0x202F ||
    n == 0x205F || n == 0x3000
  }

  predicate AllSpace(s: string) {
    forall k :: 0 <= k < |s| ==> IsSpace(s[k])
  }

  /** Drops the leading white space: what is left is a suffix that does not start with a space. */
  function TrimLeft(s: string): (r: string)
    ensures |r| <= |s| && r == s[|s| - |r|..]
    ensures AllSpace(s[..|s| - |r|])
    ensures r == [] || !IsSpace(r[0])
  {
    if |s| > 0 && IsSpace(s[0]) then
      var r := TrimLeft(s[1..]);
      assert s[..|s| - |r|] == [s[0]] + s[1..][..|s| - 1 - |r|];
      assert s[|s| - |r|..] == s[1..][|s| - 1 - |r|..];
      r
    else s
  }

  /** Drops the trailing white space: what is left is a prefix that does not end with a space. */
  function TrimRight(s: string): (r: string)
    ensures |r| <= |s| && r == s[..|r|]
    ensures AllSpace(s[|r|..])
    ensures r == [] || !IsSpace(r[|r| - 1])
  {
    if |s| > 0 && IsSpace(s[|s| - 1]) then
      var r := TrimRight(s[..|s| - 1]);
      assert s[|r|..] == s[..|s| - 1][|r|..] + [s[|s| - 1]];
      r
    else s
  }

  /** strings.TrimSpace */
  function TrimSpace(s: string): (r: string)
    ensures |r| <= |s|
    ensures r == [] <==> AllSpace(s)
    ensures r != [] ==> !IsSpace(r[0]) && !IsSpace(r[|r| - 1])
  {
    var t := TrimRight(s);
    TrimBothEnds(s, t);
    TrimLeft(t)
  }

  lemma TrimBothEnds(s: string, t: string)
    requires t == TrimRight(s)
    ensures TrimLeft(t) == [] <==> AllSpace(s)
    ensures TrimLeft(t) != [] ==> !IsSpace(TrimLeft(t)[|TrimLeft(t)| - 1])
  {
    var r := TrimLeft(t);
    if r != [] {
      assert r[0] == t[|t| - |r|];
      assert !AllSpace(t);
      assert r[|r| - 1] == t[|t| - 1];
      assert s[|t| - |r|] == t[|t| - |r|];
    } else {
      assert t[..|t|] == t;
      AllSpaceConcat(t, s[|t|..]);
      assert t + s[|t|..] == s;
    }
  }

  lemma AllSpaceConcat(a: string, b: string)
    requires AllSpace(a) && AllSpace(b)
    ensures AllSpace(a + b)
  {
    forall k | 0 <= k < |a + b| ensures IsSpace((a + b)[k]) {
      if k >= |a| { assert (a + b)[k] == b[k - |a|]; }
    }
  }

  lemma {:induction false} TrimLeftOf(a: string, m: string)
    requires AllSpace(a)
    requires m == [] || !IsSpace(m[0])
    ensures TrimLeft(a + m) == m
  {
    if a != [] {
      assert (a + m)[1..] == a[1..] + m;
      TrimLeftOf(a[1..], m);
    }
  }

  lemma {:induction false} TrimRightOf(m: string, b: string)
    requires AllSpace(b)
    requires m == [] || !IsSpace(m[|m| - 1])
    ensures TrimRight(m + b) == m
  {
    if b != [] {
      assert (m + b)[..|m + b| - 1] == m + b[..|b| - 1];
      TrimRightOf(m, b[..|b| - 1]);
    }
  }

  /** TrimSpace removes exactly the white space around the text: the interior,
      blank lines included, is kept as it is. */
  lemma TrimSpaceOf(a: string, m: string, b: string)
    requires AllSpace(a) && AllSpace(b)
    requires m != [] && !IsSpace(m[0]) && !IsSpace(m[|m| - 1])
    ensures TrimSpace(a + m + b) == m
  {
    assert (a + m) != [] && (a + m)[|a + m| - 1] == m[|m| - 1];
    TrimRightOf(a + m, b);
    TrimLeftOf(a, m);
  }

  /** strings.ReplaceAll(s, string(c), ""): removes every occurrence of c and keeps the rest. */
  function RemoveChar(s: string, c: char): (r: string)
    ensures c !in r
    ensures |r| <= |s|
    ensures c !in s ==> r == s
    ensures forall x :: x != c ==> multiset(r)[x] == multiset(s)[x]
  {
    if s == [] then []
    else
      assert s == [s[0]] + s[1..];
      (if s[0] == c then [] else [s[0]]) + RemoveChar(s[1..], c)
  }

  /** strings.ReplaceAll(s, "\r\n", "\n"): a left-to-right scan for non-overlapping "\r\n".
      It only ever deletes carriage returns. */
  function ReplaceCRLF(s: string): (r: string)
    ensures |r| <= |s|
    ensures RemoveChar(r, '\r') == RemoveChar(s, '\r')
    ensures '\r' !in s ==> r == s
  {
    if |s| == 0 then []
    else if |s| >= 2 && s[0] == '\r' && s[1] == '\n' then
      assert s[1..][1..] == s[2..];
      "\n" + ReplaceCRLF(s[2..])
    else
      [s[0]] + ReplaceCRLF(s[1..])
  }

  /** Windows line endings: every '\n' written as "\r\n" (the reference against which ReplaceCRLF is checked). */
  function ToCRLF(s: string): (r: string)
    ensures r == [] || r[0] != '\n'
  {
    if s == [] then [] else (if s[0] == '\n' then "\r\n" else [s[0]]) + ToCRLF(s[1..])
  }

  /** CRLF normalisation undoes CRLF line endings, whatever else the text holds. */
  lemma {:induction false} ReplaceCRLFOfToCRLF(s: string)
    ensures ReplaceCRLF(ToCRLF(s)) == s
  {
    if s != [] {
      ReplaceCRLFOfToCRLF(s[1..]);
      var t := ToCRLF(s[1..]);
      if s[0] == '\n' {
        assert ToCRLF(s) == "\r\n" + t;
        assert ("\r\n" + t)[2..] == t;
      } else {
        assert ToCRLF(s) == [s[0]] + t;
        assert ([s[0]] + t)[1..] == t;
      }
    }
  }

  /** CRLF normalisation works piece by piece: a cut that does not split a "\r\n"
      pair normalises each side on its own, so mixed line endings are handled line
      by line. */
  lemma {:induction false} ReplaceCRLFConcat(a: string, b: string)
    requires a == [] || a[|a| - 1] != '\r'
    ensures ReplaceCRLF(a + b) == ReplaceCRLF(a) + ReplaceCRLF(b)
    decreases |a|, 1
  {
    if a == [] {
      assert a + b == b;
      assert ReplaceCRLF(a) == [];
    } else if |a| >= 2 && a[0] == '\r' && a[1] == '\n' {
      var t := a[2..];
      assert a == "\r\n" + t && a + b == "\r\n" + (t + b);
      ReplaceCRLFConcatPair(t, b);
    } else {
      var c, t := a[0], a[1..];
      assert a == [c] + t && a + b == [c] + (t + b);
      ReplaceCRLFConcatChar(c, t, b);
    }
  }

  /** ReplaceCRLFConcat when the first piece starts with a "\r\n" pair. */
  lemma {:induction false} ReplaceCRLFConcatPair(t: string, b: string)
    requires t == [] || t[|t| - 1] != '\r'
    ensures ReplaceCRLF("\r\n" + (t + b)) == ReplaceCRLF("\r\n" + t) + ReplaceCRLF(b)
    decreases |t| + 2, 0
  {
    calc {
      ReplaceCRLF("\r\n" + (t + b));
      { ReplaceCRLFOfPair(t + b); }
      "\n" + ReplaceCRLF(t + b);
      { ReplaceCRLFConcat(t, b); }
      "\n" + (ReplaceCRLF(t) + ReplaceCRLF(b));
      { ConcatAssoc("\n", ReplaceCRLF(t), ReplaceCRLF(b)); }
      ("\n" + ReplaceCRLF(t)) + ReplaceCRLF(b);
      { ReplaceCRLFOfPair(t); }
      ReplaceCRLF("\r\n" + t) + ReplaceCRLF(b);
    }
  }

  /** ReplaceCRLFConcat when the first piece starts with a character that does not
      open a "\r\n" pair. */
  lemma {:induction false} ReplaceCRLFConcatChar(c: char, t: string, b: string)
    requires t == [] ==> c != '\r'
    requires t != [] ==> t[|t| - 1] != '\r' && !(c == '\r' && t[0] == '\n')
    ensures ReplaceCRLF([c] + (t + b)) == ReplaceCRLF([c] + t) + ReplaceCRLF(b)
    decreases |t| + 1, 0
  {
    assert !(c == '\r' && t + b != [] && (t + b)[0] == '\n') by {
      if t != [] {
        assert (t + b)[0] == t[0];
      }
    }
    calc {
      ReplaceCRLF([c] + (t + b));
      { ReplaceCRLFOfChar(c, t + b); }
      [c] + ReplaceCRLF(t + b);
      { ReplaceCRLFConcat(t, b); }
      [c] + (ReplaceCRLF(t) + ReplaceCRLF(b));
      { ConcatAssoc([c], ReplaceCRLF(t), ReplaceCRLF(b)); }
      ([c] + ReplaceCRLF(t)) + ReplaceCRLF(b);
      { ReplaceCRLFOfChar(c, t); }
      ReplaceCRLF([c] + t) + ReplaceCRLF(b);
    }
  }

  /** Sequence concatenation is associative; stated on plain values so that large
      terms are regrouped without unfolding them. */
  lemma ConcatAssoc<T>(a: seq<T>, b: seq<T>, c: seq<T>)
    ensures (a + b) + c == a + (b + c)
  {
  }

  /** Unfolding ReplaceCRLF over a leading pair. */
  lemma ReplaceCRLFOfPair(t: string)
    ensures ReplaceCRLF("\r\n" + t) == "\n" + ReplaceCRLF(t)
  {
    assert ("\r\n" + t)[2..] == t;
  }

  /** Unfolding ReplaceCRLF over a leading character that does not start a pair. */
  lemma ReplaceCRLFOfChar(c: char, t: string)
    requires !(c == '\r' && t != [] && t[0] == '\n')
    ensures ReplaceCRLF([c] + t) == [c] + ReplaceCRLF(t)
  {
    assert ([c] + t)[1..] == t;
  }

  /** Replacing CRLF by LF keeps every character other than the carriage return. */
  lemma ReplaceCRLFKeeps(s: string, c: char)
    requires c != '\r'
    ensures c in ReplaceCRLF(s) <==> c in s
  {
    var r := ReplaceCRLF(s);
    assert multiset(RemoveChar(r, '\r'))[c] == multiset(RemoveChar(s, '\r'))[c];
    assert c in r <==> multiset(r)[c] > 0;
    assert c in s <==> multiset(s)[c] > 0;
  }

  /** The number of occurrences of c in s. */
  function Count(s: string, c: char): nat {
    if s == [] then 0 else (if s[0] == c then 1 else 0) + Count(s[1..], c)
  }

  /** strings.Split(s, string(sep)): never empty, one piece more than separators, no piece holds sep. */
  function Split(s: string, sep: char): (r: seq<string>)
    ensures |r| == Count(s, sep) + 1
    ensures forall k :: 0 <= k < |r| ==> sep !in r[k]
  {
    if s == [] then [[]]
    else
      var rest := Split(s[1..], sep);
      if s[0] == sep then [[]] + rest
      else [[s[0]] + rest[0]] + rest[1..]
  }

  /** strings.Join(parts, string(sep)) */
  function Join(parts: seq<string>, sep: char): string {
    if parts == [] then []
    else if |parts| == 1 then parts[0]
    else parts[0] + [sep] + Join(parts[1..], sep)
  }

  /** Splitting and joining back gives the text back. */
  lemma {:induction false} JoinSplit(s: string, sep: char)
    ensures Join(Split(s, sep), sep) == s
  {
    if s != [] {
      JoinSplit(s[1..], sep);
      var rest := Split(s[1..], sep);
      if s[0] == sep {
        assert ([[]] + rest)[1..] == rest;
      } else {
        var r := [[s[0]] + rest[0]] + rest[1..];
        if |rest| == 1 {
          assert r == [[s[0]] + rest[0]];
        } else {
          assert r[1..] == rest[1..];
          assert Join(rest, sep) == rest[0] + [sep] + Join(rest[1..], sep);
        }
      }
    }
  }

  /** A character of a piece is a character of the joined text. */
  lemma {:induction false} JoinContains(parts: seq<string>, sep: char, k: nat, c: char)
    requires k < |parts| && c in parts[k]
    ensures c in Join(parts, sep)
  {
    if |parts| > 1 {
      var rest := Join(parts[1..], sep);
      assert Join(parts, sep) == parts[0] + [sep] + rest;
      if k == 0 {
        var i :| 0 <= i < |parts[0]| && parts[0][i] == c;
        assert Join(parts, sep)[i] == c;
      } else {
        JoinContains(parts[1..], sep, k - 1, c);
        var i :| 0 <= i < |rest| && rest[i] == c;
        assert Join(parts, sep)[|parts[0]| + 1 + i] == c;
      }
    }
  }

  lemma {:induction false} SplitNoSep(p: string, sep: char)
    requires sep !in p
    ensures Split(p, sep) == [p]
  {
    if p != [] {
      SplitNoSep(p[1..], sep);
      assert [p[0]] + p[1..] == p;
    }
  }

  lemma {:induction false} SplitAfterPiece(p: string, t: string, sep: char)
    requires sep !in p
    ensures Split(p + [sep] + t, sep) == [p] + Split(t, sep)
  {
    if p == [] {
      assert ([] + [sep] + t)[1..] == t;
    } else {
      assert (p + [sep] + t)[1..] == p[1..] + [sep] + t;
      SplitAfterPiece(p[1..], t, sep);
      assert [p[0]] + p[1..] == p;
    }
  }

  /** Joining pieces free of the separator and splitting again gives every piece
      back, empty pieces (blank lines) included. */
  lemma {:induction false} SplitJoin(parts: seq<string>, sep: char)
    requires |parts| >= 1
    requires forall k :: 0 <= k < |parts| ==> sep !in parts[k]
    ensures Split(Join(parts, sep), sep) == parts
  {
    if |parts| == 1 {
      SplitNoSep(parts[0], sep);
    } else {
      SplitJoin(parts[1..], sep);
      SplitAfterPiece(parts[0], Join(parts[1..], sep), sep);
      assert [parts[0]] + parts[1..] == parts;
    }
  }

  /** strings.Index(s, string(c)): the first position of c, or -1. */
  function IndexOf(s: string, c: char): (i: int)
    ensures i == -1 <==> c !in s
    ensures i != -1 ==> 0 <= i < |s| && s[i] == c && c !in s[..i]
  {
    if s == [] then -1
    else if s[0] == c then 0
    else
      var j := IndexOf(s[1..], c);
      if j == -1 then -1
      else
        assert s[..j + 1] == [s[0]] + s[1..][..j];
        j + 1
  }

  /** strings.LastIndex(s, string(c)): the last position of c, or -1. */
  function LastIndexOf(s: string, c: char): (i: int)
    ensures i == -1 <==> c !in s
    ensures i != -1 ==> 0 <= i < |s| && s[i] == c && c !in s[i + 1..]
  {
    if s == [] then -1
    else if s[|s| - 1] == c then |s| - 1
    else
      var j := LastIndexOf(s[..|s| - 1], c);
      if j == -1 then -1
      else
        assert s[j + 1..] == s[..|s| - 1][j + 1..] + [s[|s| - 1]];
        j
  }

  /** A position holding c with no c before it is the one IndexOf finds. */
  lemma IndexOfAt(s: string, c: char, k: nat)
    requires k < |s| && s[k] == c && c !in s[..k]
    ensures IndexOf(s, c) == k
  {
  }

  /** A position holding c with no c after it is the one LastIndexOf finds. */
  lemma LastIndexOfAt(s: string, c: char, k: nat)
    requires k < |s| && s[k] == c && c !in s[k + 1..]
    ensures LastIndexOf(s, c) == k
  {
  }

  predicate StartsWith(s: string, p: string) {
    |p| <= |s| && s[..|p|] == p
  }

  /** strings.Contains(s, sub), by scanning the start positions in turn. */
  predicate Contains(s: string, sub: string)
    decreases |s|
  {
    StartsWith(s, sub) || (|s| > 0 && Contains(s[1..], sub))
  }

  /** Contains means that sub occurs at some position of s. */
  lemma {:induction false} ContainsAt(s: string, sub: string, i: nat)
    requires i + |sub| <= |s|
    ensures Contains(s, sub) <== s[i..i + |sub|] == sub
  {
    if i > 0 && s[i..i + |sub|] == sub {
      assert s[1..][i - 1..i - 1 + |sub|] == s[i..i + |sub|];
      ContainsAt(s[1..], sub, i - 1);
    }
  }

  lemma {:induction false} ContainsWitness(s: string, sub: string) returns (i: nat)
    requires Contains(s, sub)
    ensures i + |sub| <= |s| && s[i..i + |sub|] == sub
  {
    if StartsWith(s, sub) {
      i := 0;
    } else {
      var j := ContainsWitness(s[1..], sub);
      assert s[1..][j..j + |sub|] == s[j + 1..j + 1 + |sub|];
      i := j + 1;
    }
  }

  predicate NoDup<T(==)>(s: seq<T>) {
    forall i, j :: 0 <= i < j < |s| ==> s[i] != s[j]
  }

  /** Appends x unless it is already present: keeps order, adds nothing twice. */
  function AppendUnique(s: seq<string>, x: string): (r: seq<string>)
    ensures s <= r && x in r
    ensures forall y :: y in r <==> y in s || y == x
    ensures NoDup(s) ==> NoDup(r)
  {
    if x in s then s else s + [x]
  }
}
